=== FILE: README.md ===
# Chat bot message pipeline and betting feature, in Dafny

This project models two parts of a Twitch chat bot written in TypeScript.

The first is the **message pipeline** of `src/MessageProcessor.ts`. It has three parts:

- **Tag parser** (`TagParser`, `tags.dfy`). The `Tags` class turns a line's `@key=value;...` metadata prefix into typed fields.
  - Keys are matched ignoring case.
  - Badges follow a `,` then `/` grammar.
  - Emotes follow a `/`, `:`, `,` then `-` grammar.
  - Bad numbers degrade to 0.
  - A key whose value is undefined and is handed to a string method throws a TypeError.
  - The pure functions `Assign`, `ApplyAll` and `ParseTagString` specify the parse. The class assigns its fields one key at a time, as the program does, and each method is proved to agree with them.
- **Feature router** (`Routing`, `router.dfy`, and `Processor.MessageProcessor`).
  - Features are filed under their trigger, lower-cased and trimmed.
  - A message first runs the features under the empty trigger, then those under the `!word` it starts with.
- **Response gate** (`ResponseGate`, `gate.dfy`, and `Processor.MessageProcessor`). This is the rate limit in front of the chat connection.
  - A response is sent while the 30-second counter is under the limit.
  - Otherwise it joins a FIFO queue that never holds two equal responses.
  - The 30-second tick (`ResetMessageCount`) clears the counter.
  - The 10-second tick (`ProcessDelayedMessages`) drains the queue, at most `limit / 3 + 1` per tick.
  - The transport's `send` appends to the ghost log `sent`. The gate's state is the datatype `Gate`, and the class's methods are proved against the functions `Submit`, `Flush` and `Reset`.

The second is the **betting feature** of `src/Features/Bets.ts` (`Betting`, `bets.dfy`):

- A round moves Idle → Open → WaitingForResult → Idle, on the admin's `open`, `close` and `result` commands.
- Other users place or replace one bet each while the round is open.
- `result X` announces the users whose bet equals `X` ignoring case, then clears the bets.
- `Step` specifies one call of `act`. The class `Bets`, with its `state` and `answers` fields, is proved to follow it.

Supporting modules:

- `Wrappers`: `Option` and `Result`.
- `JsString`: the JavaScript string operations used: `split` with a one-character separator, `join` with any separator, `toLowerCase`, `trim`, `indexOf`, `startsWith`.
- `JsNumber`: decoding the digit prefix of a string.
- `Messages`: `Message`, `FeatureResponse` and `responseEquals`.

Where the design description of the system and the code disagree, the model follows the code:

- **Emotes are never deduplicated.** The design says emotes form a set with equality by value. The code adds a freshly built object per position to a `Set`, so nothing is ever merged; the model keeps a sequence.
- **A one-word trigger keeps its case.** The design says triggers compare ignoring case. The code returns a one-word trigger such as `!Bet` unchanged, so it misses the lower-case bucket `bet`.
- **The flush cap is `floor(limit / 3) + 1` per tick.** The design describes the cap as the limit divided by three, rounded up. The code stops only after the pop at which the tick's count exceeds `limit / 3`.
- **Undefined values throw.** The design says parsing never fails. In the code, a segment without `=` under `bits`, `badges`, `emotes` or `user-type` calls a string method on `undefined`. That throws out of the `Tags` constructor.
- **Setup still runs for a feature without a trigger.** The design says such a feature is rejected. The code still calls its `setup` before leaving it out of every bucket.

## Model

| member | source | states |
|---|---|---|
| TagParser.ParseUserType | src/MessageProcessor.ts:122-138 | `mod`, `global_mod`, `admin`, `staff` select their role exactly when the value lower-cases to that name; everything else, `""` included, gives Normal |
| TagParser.UnknownUserTypeIsNormal | src/MessageProcessor.ts:122-138 | a role name outside the table gives Normal |
| TagParser.ParseBool | src/MessageProcessor.ts:140-147 | the flag is false exactly for the string "0"; undefined gives true |
| TagParser.ParseInt | src/MessageProcessor.ts:149-156 | a number field decodes to a non-negative value; undefined decodes to 0 |
| TagParser.BadgeName | src/MessageProcessor.ts:163-165 | a badge name is the prefix of its entry before the first `/` |
| TagParser.BadgesFrom | src/MessageProcessor.ts:158-171 | the badge list holds at most one name per entry, each non-empty and free of `/` |
| TagParser.BadgesRoundTrip | src/MessageProcessor.ts:158-171 | `name/version` entries joined by `,` parse back to the names, in order; the empty value of a user with no badges parses to no badges |
| TagParser.PositionEmotes | src/MessageProcessor.ts:189-201 | a group yields one emote per position, in order, each with the group's id |
| TagParser.EmoteCount | src/MessageProcessor.ts:178-201 | the emotes of a value number exactly its position entries, at least one per group |
| TagParser.SpanRoundTrip | src/MessageProcessor.ts:191-198 | a written `start-end` position reads back as an emote with that start and end |
| TagParser.ColonAfterDigits | src/MessageProcessor.ts:182-183 | in `id:positions` the separator found is the one right after the id's digits |
| TagParser.SpansRoundTrip | src/MessageProcessor.ts:188-201 | written positions, one per span, read back as one emote per span, in span order |
| TagParser.GroupRoundTrip | src/MessageProcessor.ts:180-201 | a written group `id:start-end,...` reads back as its id and one emote per span, in order |
| TagParser.GroupsRoundTrip | src/MessageProcessor.ts:178-201 | written groups read back as their emotes, group by group and span by span |
| TagParser.EmotesRoundTrip | src/MessageProcessor.ts:173-203 | an `emotes` value written as `id:start-end,start-end` groups joined by `/` parses to exactly the (id, start, end) emotes, group by group and span by span; the empty value parses to none |
| TagParser.EmotesSegment | src/MessageProcessor.ts:87-89 | an `emotes=v` segment appends the emotes of `v` to the list and the parse continues |
| TagParser.EmotesAccumulate | src/MessageProcessor.ts:195-200 | two `emotes` segments accumulate both lists; nothing is replaced or merged |
| TagParser.BadgesOf | src/MessageProcessor.ts:158-171 | `parseBadges`: the non-empty names of the `,`-separated entries; its meaning is stated by `BadgesFrom` and `BadgesRoundTrip` |
| TagParser.EmotesOf | src/MessageProcessor.ts:173-203 | `parseEmotes`: none for the empty value, otherwise the emotes of the `/`-separated groups; its meaning is stated by `EmoteCount` and `EmotesRoundTrip` |
| TagParser.KeyOf | src/MessageProcessor.ts:72 | the switch case the lower-cased name selects; stated by `KeyOfMatches` and `KeysIgnoreCase` |
| TagParser.FindKey | src/MessageProcessor.ts:72-117 | the case found has the looked-up label; no case found means no label from there on matches |
| TagParser.KeyOfMatches | src/MessageProcessor.ts:72 | a name selects a case exactly when its lower-case form is that case's label |
| TagParser.KeysIgnoreCase | src/MessageProcessor.ts:72 | a name and its lower-case form select the same case |
| TagParser.Assign | src/MessageProcessor.ts:71-120 | assigning a key fails exactly when its value is undefined and the key hands it to a string method, with that key as the error; `sent-ts` and unknown keys change nothing; the emote list only grows |
| TagParser.EmoteOnlyKey | src/MessageProcessor.ts:84-86 | `emote-only`, in any case, sets only the emote-only flag, to `value != "0"` |
| TagParser.ModKey | src/MessageProcessor.ts:93-95 | `mod`, in any case, sets only the moderator flag, to `value != "0"` |
| TagParser.SubscriberKey | src/MessageProcessor.ts:99-101 | `subscriber`, in any case, sets only the subscriber flag, to `value != "0"` |
| TagParser.TurboKey | src/MessageProcessor.ts:108-110 | `turbo`, in any case, sets only the turbo flag, to `value != "0"` |
| TagParser.BitsOverwritesBadges | src/MessageProcessor.ts:76-80 | `bits` falls through into `badges`: it sets the bit count and also replaces the badge list with the badges parsed from the bits value |
| TagParser.ApplyAll | src/MessageProcessor.ts:59-69 | the `;` segments assigned in order, stopping at the first TypeError; stated by `ApplyAllPairs`, `EmotesSegment`, `ApplyAllStep` and `Tags.ParseTags` |
| TagParser.ApplyAllStep | src/MessageProcessor.ts:62-67 | a segment that assigns without error hands its record on to the rest of the parse |
| TagParser.ParseTagString | src/MessageProcessor.ts:50-57 | the defaults for a string without `@`, otherwise the parse of what follows it; stated by `WithoutMarkerDefaults`, `TagStringRoundTrip`, `ColorAndModLine` and `Tags.Create` |
| TagParser.ValueStopsAtSecondEquals | src/MessageProcessor.ts:63-65 | in `key=a=b` the key is `key` and the value is `a`; what follows the second `=` is lost |
| TagParser.SegmentWithoutEquals | src/MessageProcessor.ts:63-65 | a segment without `=` is its own key and has an undefined value |
| TagParser.SegmentParts | src/MessageProcessor.ts:63-65 | a segment `k=v` with no `=` in `k` or `v` has key `k` and value `v` |
| TagParser.PairText | src/MessageProcessor.ts:60-65 | the segment `name=value` of a pair holds no `;`, so it survives the split into segments |
| TagParser.PairTexts | src/MessageProcessor.ts:60-65 | one segment per pair, in order |
| TagParser.ApplyAllPairs | src/MessageProcessor.ts:62-67 | the segments of well-formed pairs never raise, and assign each value under its name left to right, as the independent fold `AssignPairs` does |
| TagParser.TagStringRoundTrip | src/MessageProcessor.ts:50-67 | `@` followed by well-formed `name=value` pairs joined by `;` parses without error to the defaults with each pair assigned in order |
| TagParser.EmptyTagLine | src/MessageProcessor.ts:50-67 | the line `@` alone is one empty segment that matches no key, so it parses to the defaults |
| TagParser.ColorAndModLine | src/MessageProcessor.ts:50-94 | `@color=blue;mod=1` parses to the defaults with colour `blue` and the moderator flag set |
| TagParser.ColorAndModText | src/MessageProcessor.ts:60-65 | `@color=blue;mod=1` is the tag line of the pairs `color=blue` and `mod=1` |
| TagParser.ColorAndModAssign | src/MessageProcessor.ts:70-94 | assigning `color=blue` and then `mod=1` to the defaults sets exactly the colour and the moderator flag |
| TagParser.WithoutMarkerDefaults | src/MessageProcessor.ts:50-57 | a line not starting with `@` leaves every field at its default |
| TagParser.Tags.constructor | src/MessageProcessor.ts:35-48 | a new object holds the field defaults |
| TagParser.Tags.Create | src/MessageProcessor.ts:50-57 | constructing from a line gives a fresh object holding the parse of the line, or the TypeError the parse throws |
| TagParser.Tags.ParseTags | src/MessageProcessor.ts:59-69 | the loop over the `;` segments leaves the fields as the whole parse says, or stops with the parse's error |
| TagParser.Tags.AssignTag | src/MessageProcessor.ts:71-72 | one segment updates the fields as the case its lower-cased name selects says |
| TagParser.Tags.AssignKey | src/MessageProcessor.ts:71-120 | the switch updates the fields as `Assign` says, or reports its TypeError |
| TagParser.Tags.AssignBadges | src/MessageProcessor.ts:76-80 | the `bits` and `badges` cases, including the fall-through, agree with `Assign` |
| TagParser.Tags.AssignEmotes | src/MessageProcessor.ts:87-89 | the `emotes` case agrees with `Assign` |
| TagParser.Tags.AssignUserType | src/MessageProcessor.ts:114-116 | the `user-type` case agrees with `Assign` |
| TagParser.Tags.AssignText | src/MessageProcessor.ts:73-92 | the `color`, `display-name` and `id` cases store the value as it is |
| TagParser.Tags.AssignFlag | src/MessageProcessor.ts:84-110 | the `emote-only`, `mod`, `subscriber` and `turbo` cases agree with `Assign` |
| TagParser.Tags.AssignNumber | src/MessageProcessor.ts:96-113 | the `room-id`, `tmi-sent-ts` and `user-id` cases agree with `Assign` |
| TagParser.Tags.ParseBadges | src/MessageProcessor.ts:158-171 | the loop returns the badge names of the `,`-separated entries |
| TagParser.Tags.ParseEmotes | src/MessageProcessor.ts:173-203 | the nested loops append exactly the emotes of the value to the list and change no other field |
| TagParser.Tags.PushPositions | src/MessageProcessor.ts:189-201 | the inner loop appends one emote per position of the group, in order |
| Messages.ResponseEquals | src/MessageProcessor.ts:388-407 | two responses are equal exactly when they agree on channel, sender, tags object and text, i.e. are the same response value |
| Routing.Normalise | src/MessageProcessor.ts:303 | `toLowerCase().trim()` of a trigger; stated by `NormaliseSpec` |
| Routing.Register | src/MessageProcessor.ts:295-312 | the registry after `registerFeature`; stated by `RegisterKeepsWellFormed`, `RegisterFiles` and `RegisterIdempotent` |
| Routing.Dispatched | src/MessageProcessor.ts:314-325 | the features `process` calls when none throws; stated by `DispatchedIff` |
| Routing.NormaliseSpec | src/MessageProcessor.ts:303 | a registry key is lower case and has no white space at either end |
| Routing.RegisterKeepsWellFormed | src/MessageProcessor.ts:295-312 | after registration every bucket is non-empty and duplicate-free, and holds only features whose normalised trigger is its key |
| Routing.RegisterFiles | src/MessageProcessor.ts:295-312 | registering a feature already in its bucket changes nothing; otherwise registration appends at most one feature, at the end of its own bucket where it is then present; other buckets, and all buckets for a feature without trigger, are unchanged |
| Routing.RegisterIdempotent | src/MessageProcessor.ts:305-311 | registering a feature twice equals registering it once |
| Routing.GetTrigger | src/MessageProcessor.ts:327-345 | no trigger exactly for empty text, text not starting with `!`, or a space right after `!`; otherwise the lower-cased word up to the first space, or the whole rest unchanged when there is no space; a trigger never holds a space |
| Routing.DispatchedIff | src/MessageProcessor.ts:314-325 | a feature runs for a message exactly when it is registered under the empty trigger or under the message's trigger; so a feature under t1 never runs for a trigger t2 ≠ t1, and an unregistered feature never runs |
| Routing.UpperCaseTriggerMissesItsBucket | src/MessageProcessor.ts:340-341 | a one-word trigger with an upper-case letter runs only the empty-trigger features |
| Routing.BangAloneRunsAlwaysTwice | src/MessageProcessor.ts:314-341 | the text `!` yields the empty trigger, so the empty-trigger features run twice |
| Routing.RunUntilThrowSpec | src/MessageProcessor.ts:347-353 | the features whose `act` is called form a prefix of the list, non-empty for a non-empty list; none before the last throws, and the run stops short of the end only after one that throws |
| Routing.RunWithoutThrow | src/MessageProcessor.ts:347-353 | the whole list runs, ending on a feature that does not throw, exactly when no feature of the list throws |
| Routing.RunStep | src/MessageProcessor.ts:349-351 | one iteration: the feature is called; a throw ends the run there, otherwise the rest of the list follows |
| Routing.RunAppend | src/MessageProcessor.ts:314-325 | two buckets called in a row: a throw in the first ends the run before the second starts; otherwise the first runs whole and the second as far as its first throw |
| Routing.ThrowsAppend | src/MessageProcessor.ts:314-325 | the two buckets of `process` throw exactly when one of them does |
| Routing.ThrowInAlwaysBucketSkipsTrigger | src/MessageProcessor.ts:315-324 | a throwing feature under the empty trigger ends `process` before any feature under the message's trigger runs |
| Routing.Feature.constructor | src/MessageProcessor.ts:16-20 | a feature handle carries its trigger, or none |
| ResponseGate.UnderLimit | src/MessageProcessor.ts:374-376 | one more message fits under the limit |
| ResponseGate.Defer | src/MessageProcessor.ts:378-386 | the queue with the response appended unless an equal one waits; stated by `SubmitOutcome` and `DeferResponse` |
| ResponseGate.FlushFrom | src/MessageProcessor.ts:275-292 | the flush loop after some pops; stated by `FlushFromBatch` |
| ResponseGate.Flush | src/MessageProcessor.ts:269-293 | the flush tick; stated by `FlushBatch` |
| ResponseGate.Submit | src/MessageProcessor.ts:355-372 | under the limit a submission leaves the queue as it was |
| ResponseGate.SubmitOutcome | src/MessageProcessor.ts:355-386 | a response without text or channel changes nothing; under the limit it is sent and counted; at the limit nothing is sent, the queue stays as it is when an equal response already waits, and otherwise the response is appended at its end; the counter stays within the limit and the queue stays duplicate-free |
| ResponseGate.FlushCount | src/MessageProcessor.ts:274-292 | a flush tick sends no more than the queue holds, than the room under the limit, or than `limit / 3 + 1` |
| ResponseGate.FlushBatch | src/MessageProcessor.ts:269-293 | a flush tick sends the first `FlushCount` queued responses in queue order and counts them; the rest stay queued in order; the gate stays valid |
| ResponseGate.FlushFromBatch | src/MessageProcessor.ts:275-292 | the same closed form for the loop after any number of pops within a tick |
| Processor.MessageProcessor.constructor | src/MessageProcessor.ts:228-236 | a new processor has no features, an empty queue, a zero counter, and is valid |
| Processor.MessageProcessor.ResetMessageCount | src/MessageProcessor.ts:265-267 | the 30-second tick sets the counter to 0 and changes nothing else |
| Processor.MessageProcessor.ProcessDelayedMessages | src/MessageProcessor.ts:269-293 | the 10-second tick changes the gate as `Flush` says and keeps it valid |
| Processor.MessageProcessor.RegisterFeature | src/MessageProcessor.ts:295-312 | setup is called for every feature; if it throws, the call fails and the registry is unchanged; otherwise the registry changes as `Register` says; it stays well formed |
| Processor.MessageProcessor.FileFeature | src/MessageProcessor.ts:303-311 | the bucket update agrees with `Register` |
| Processor.MessageProcessor.Process | src/MessageProcessor.ts:314-325 | the features whose `act` is called are `Dispatched` (the empty-trigger bucket, then the message trigger's bucket, each in registration order) up to and including the first that throws; the call completes exactly when none of them throws |
| Processor.MessageProcessor.InvokePlugins | src/MessageProcessor.ts:347-353 | the features of a bucket are called once each, in order, up to and including the first that throws; the call completes exactly when none throws; a missing bucket calls none |
| Processor.MessageProcessor.ProcessResponse | src/MessageProcessor.ts:355-372 | a submission changes the gate as `Submit` says and keeps it valid |
| Processor.MessageProcessor.IsUnderMessageLimit | src/MessageProcessor.ts:374-376 | the check holds exactly when the gate is under the limit, and then the counter is below the limit |
| Processor.MessageProcessor.DeferResponse | src/MessageProcessor.ts:378-386 | the queue gains the response at its end unless an equal response is already queued |
| Betting.Step | src/Features/Bets.ts:31-103 | one call of `act`: the new table and reply, or the TypeError; stated by `StepFailsIff`, `OnlyAdminChangesState`, `AdminTransitions` and the other lemmas below |
| Betting.AdminStep | src/Features/Bets.ts:42-71 | the three sequential admin checks; stated by `AdminTransitions` and `ResultAnnouncesWinners` |
| Betting.Upsert | src/Features/Bets.ts:75-88 | a bet recorded for a user; stated by `UpsertRecords` |
| Betting.FindAnswer | src/Features/Bets.ts:76 | the index found is the first bet of the user; -1 exactly when the user has no bet |
| Betting.WinnerNames | src/Features/Bets.ts:63-64 | there are no more winners than bets |
| Betting.WinnerNamesAppend | src/Features/Bets.ts:63-64 | winners keep table order: the winners of two tables in a row are those of the first, then those of the second |
| Betting.WinnerNamesIff | src/Features/Bets.ts:63-64 | a name is among the winners exactly when some bet of that user equals the result ignoring case |
| Betting.StepFailsIff | src/Features/Bets.ts:35-42 | `act` throws exactly for an admin message with no word after the trigger |
| Betting.OnlyAdminChangesState | src/Features/Bets.ts:40-89 | messages from anyone but the admin never change the state and never reply |
| Betting.AdminTransitions | src/Features/Bets.ts:42-71 | Idle+`open` → Open, Open+`close` → WaitingForResult, WaitingForResult+`result` → Idle, ignoring case; any other command keeps the state; the admin gets a reply exactly when the state moves |
| Betting.ReplyIffTransition | src/Features/Bets.ts:42-102 | one call moves the state at most one step, and a reply is produced exactly when it moves |
| Betting.ReplyShape | src/Features/Bets.ts:92-102 | a reply goes to the incoming message's channel, from `""`, with a non-empty text and no tags |
| Betting.ResultAnnouncesWinners | src/Features/Bets.ts:55-71 | `result X` replies `Winners: ` and the users whose bet equals X ignoring case, in table order, joined by `, `; the table is emptied and the state is Idle |
| Betting.UpsertRecords | src/Features/Bets.ts:73-89 | a new user's bet is appended; an existing user's bet is overwritten where it stands; other bets stay; users stay unique |
| Betting.StepKeepsUniqueUsers | src/Features/Bets.ts:73-89 | no call of `act` gives a user two bets |
| Betting.AdminNeverBets | src/Features/Bets.ts:40-72 | admin messages never add a bet; they keep the table or clear it |
| Betting.ClosedRoundIgnoresBets | src/Features/Bets.ts:73 | outside an open round other users' messages change nothing and get no reply |
| Betting.Bets.constructor | src/Features/Bets.ts:20-28 | a new feature has trigger `bet`, is Idle and has no bets |
| Betting.Bets.Act | src/Features/Bets.ts:31-103 | `act` updates the state and the bets as `Step` says and returns the reply, or throws and changes nothing |

## Left out

- Timers: the `setInterval` calls in `connect` are not modelled. The two ticks are methods that are called explicitly.
- The chat client and its wiring are not modelled: construction, `onMessage`, `onError`, `connect`. `send` is modelled as an append to the ghost log `sent`.
- Logging (`logger`, `console.warn`) is not modelled; it has no effect on state. This includes the warning when the queue is longer than the limit.
- The `err` argument of `processResponse` is not modelled, since it is only logged. Null responses and responses without a message cannot be expressed: `FeatureResponse` always holds a `Message`.
- `Message.toString` is not modelled; it only formats text.
- The `messageOfTheDay` field is not modelled, because no core method uses it.
- TagParser.ParseInt: `Number.parseFloat` and `Number.parseInt` are modelled as reading the leading ASCII digits as a natural number. The cases that would give NaN give 0. Signs, fractions, exponents and leading white space are not modelled.
- JsString.Lower: `toLowerCase` changes only the ASCII letters A-Z. JsString.Trim removes only the white-space characters listed in `IsWhitespace`; the other Unicode space separators (U+1680, U+2000 to U+200A, U+202F, U+205F, U+3000), which JavaScript's `trim` also removes, are kept.
- The message text of the TypeError raised for an undefined value is not modelled; the error carries the key that raised it. After that error the model does not describe the partly filled `Tags` object, because the constructor's caller never receives it.
- Emotes are objects in a `Set`. Each one is built fresh, so the set never merges two of them; the model uses a sequence and does not model object identity.
- Features are handles whose `setup` and `act` run code that is not part of this model.
  - `setup` calls are recorded in a ghost log. Whether a `setup` throws is a parameter of `RegisterFeature`; which features' `act` throws on a message is a parameter of `Process`. What makes them throw is not modelled. That parameter is one set per message, so a feature whose `act` throws only on a later call within the same `process` cannot be expressed; this matters for the message `!`, where the features under the empty trigger run twice.
  - `Process` returns the features whose `act` is called, in order, up to and including the first that throws; the exception itself is reported as a `false` completion flag, not as a value.
  - The callback passed to `setup` is not modelled. The gate's `ProcessResponse` is the method it would call.
  - `Bets` is not itself registered with a `MessageProcessor` in the model: its `act` returns its reply instead of calling back. As written, `Bets` declares no `setup` and its `act` expects a callback that `invokePlugins` never passes, so registering it would throw at `plugin.setup` (the `setupThrows` case of `RegisterFeature`); its behaviour is modelled on its own.
- Bet entries are objects updated in place. The model updates an element of a sequence and does not model aliasing of the entry objects.
- The configured limit is a natural number; the configuration promises a positive integer.
- The `Bets` logger is not modelled; it is never used.


=== FILE: bets.dfy ===
/**
 * The betting feature. The admin opens a round, closes it and announces the
 * result; while a round is open every other user places or replaces one bet.
 * The result names the users whose bet matches it, ignoring case, and clears
 * the bets.
 */
module Betting {
  import opened Wrappers
  import opened JsString
  import opened Messages

  datatype State = Idle | Open | WaitingForResult

  /** One user's bet. */
  datatype Answer = Answer(user: string, text: string)

  /** The only user who drives the rounds, compared ignoring case. */
  const AdminUser := "vash1080"
  const OpenedText := "Place your bet by entering !bet <choice>"
  const ClosedText := "Bets are closed!"
  const WinnersPrefix := "Winners: "

  /** The TypeError raised when an admin message has no word after the trigger. */
  datatype ActError = CommandUndefined

  /** The feature's state: the round's state and the bets, in the order they were first placed. */
  datatype BetTable = BetTable(state: State, answers: seq<Answer>)

  predicate IsAdmin(from: string) {
    Lower(from) == AdminUser
  }

  /** The words of a message after the trigger word. */
  function Payload(text: string): seq<string> {
    Split(text, ' ')[1..]
  }

  /** No user has two bets. */
  predicate UniqueUsers(answers: seq<Answer>) {
    forall i, j :: 0 <= i < j < |answers| ==> answers[i].user != answers[j].user
  }

  /** `answers.find(a => a.user == user)`, as an index, or -1. */
  function FindAnswer(answers: seq<Answer>, user: string): (i: int)
    ensures -1 <= i < |answers|
    ensures i == -1 <==> forall j :: 0 <= j < |answers| ==> answers[j].user != user
    ensures i >= 0 ==> answers[i].user == user && forall j :: 0 <= j < i ==> answers[j].user != user
  {
    if answers == [] then -1
    else if answers[0].user == user then 0
    else
      var k := FindAnswer(answers[1..], user);
      if k < 0 then -1 else k + 1
  }

  /** A bet from `user`: a new user is appended, an existing user's text is overwritten where it stands. */
  function Upsert(answers: seq<Answer>, user: string, text: string): seq<Answer> {
    var i := FindAnswer(answers, user);
    if i < 0 then answers + [Answer(user, text)] else answers[i := Answer(answers[i].user, text)]
  }

  /** `answers.filter(a => a.text.toLowerCase() == resultLower).map(w => w.user)`. */
  function WinnerNames(answers: seq<Answer>, resultLower: string): (names: seq<string>)
    ensures |names| <= |answers|
  {
    if answers == [] then []
    else (if Lower(answers[0].text) == resultLower then [answers[0].user] else []) + WinnerNames(answers[1..], resultLower)
  }

  /** The reply `act` hands to its callback: from nobody, to the incoming message's channel. */
  function Reply(answerText: string, msg: Message): Option<FeatureResponse> {
    if answerText != "" then Some(FeatureResponse(Message(answerText, "", msg.channel, null))) else None
  }

  /**
   * The admin's command, applied as `act` does: three checks in a row, each
   * seeing the state the previous one left, so `open` followed by the check
   * for `close` cannot fire twice in one call.
   */
  function AdminStep(t: BetTable, command: string, rest: seq<string>): (BetTable, string) {
    var (s1, text1) := if t.state == Idle && command == "open" then (Open, OpenedText) else (t.state, "");
    var (s2, text2) := if s1 == Open && command == "close" then (WaitingForResult, ClosedText) else (s1, text1);
    if s2 == WaitingForResult && command == "result" then
      var resultLower := Lower(Join(rest, " "));
      (BetTable(Idle, []), WinnersPrefix + Join(WinnerNames(t.answers, resultLower), ", "))
    else (BetTable(s2, t.answers), text2)
  }

  /** `act`: the new table and the reply, or the TypeError of an admin message without a command. */
  function Step(t: BetTable, msg: Message): Result<(BetTable, Option<FeatureResponse>), ActError> {
    var payload := Payload(msg.text);
    if IsAdmin(msg.from) then
      if payload == [] then Failure(CommandUndefined)
      else
        var (t', answerText) := AdminStep(t, Lower(payload[0]), payload[1..]);
        Success((t', Reply(answerText, msg)))
    else if t.state == Open then
      Success((BetTable(Open, Upsert(t.answers, msg.from, Join(payload, " "))), None))
    else Success((t, None))
  }

  /** The state a round moves to: the only transition out of each state. */
  function Successor(s: State): State {
    match s
    case Idle => Open
    case Open => WaitingForResult
    case WaitingForResult => Idle
  }

  // ---------------------------------------------------------------------------
  // Properties of `act`

  /** `act` throws exactly for an admin message with no space, i.e. no word after the trigger. */
  lemma StepFailsIff(t: BetTable, msg: Message)
    ensures Step(t, msg).Failure? <==> IsAdmin(msg.from) && ' ' !in msg.text
  {
    SplitSinglePiece(msg.text, ' ');
  }

  /** Messages from anyone but the admin never change the round's state, and never reply. */
  lemma OnlyAdminChangesState(t: BetTable, msg: Message)
    requires !IsAdmin(msg.from)
    ensures Step(t, msg).Success?
    ensures Step(t, msg).value.0.state == t.state && Step(t, msg).value.1 == None
  {
  }

  /**
   * An admin command moves Idle to Open on `open`, Open to WaitingForResult on
   * `close` and WaitingForResult to Idle on `result`, ignoring case; anything
   * else leaves the state alone. One call makes at most one move, and it
   * replies exactly when it moves.
   */
  lemma AdminTransitions(t: BetTable, msg: Message)
    requires IsAdmin(msg.from) && Payload(msg.text) != []
    ensures var command := Lower(Payload(msg.text)[0]);
      var moves := (t.state == Idle && command == "open") || (t.state == Open && command == "close")
        || (t.state == WaitingForResult && command == "result");
      Step(t, msg).Success?
      && Step(t, msg).value.0.state == (if moves then Successor(t.state) else t.state)
      && (Step(t, msg).value.1.Some? <==> moves)
  {
  }

  /** A step either keeps the state or moves it to its successor, and it replies exactly when the state changes. */
  lemma ReplyIffTransition(t: BetTable, msg: Message)
    requires Step(t, msg).Success?
    ensures var (t', reply) := Step(t, msg).value;
      (t'.state == t.state || t'.state == Successor(t.state))
      && (reply.Some? <==> t'.state != t.state)
  {
    if IsAdmin(msg.from) {
      AdminTransitions(t, msg);
    }
  }

  /** Every reply goes back to the incoming message's channel, from nobody, with a non-empty text and no tags. */
  lemma ReplyShape(t: BetTable, msg: Message)
    requires Step(t, msg).Success? && Step(t, msg).value.1.Some?
    ensures var m := Step(t, msg).value.1.value.message;
      m.channel == msg.channel && m.from == "" && m.text != "" && m.tags == null
  {
  }

  /**
   * `result X` names, in table order and separated by `, `, the users whose
   * bet equals X ignoring case, and empties the table.
   */
  lemma ResultAnnouncesWinners(t: BetTable, msg: Message)
    requires IsAdmin(msg.from) && t.state == WaitingForResult
    requires Payload(msg.text) != [] && Lower(Payload(msg.text)[0]) == "result"
    ensures var result := Join(Payload(msg.text)[1..], " ");
      Step(t, msg) == Success((BetTable(Idle, []),
        Some(FeatureResponse(Message(WinnersPrefix + Join(WinnerNames(t.answers, Lower(result)), ", "), "", msg.channel, null)))))
  {
  }

  /** The winners are exactly the users with a bet equal to the result ignoring case. */
  lemma {:induction false} WinnerNamesIff(answers: seq<Answer>, resultLower: string, name: string)
    ensures name in WinnerNames(answers, resultLower) <==>
      exists i :: 0 <= i < |answers| && answers[i].user == name && Lower(answers[i].text) == resultLower
  {
    if answers != [] {
      WinnerNamesIff(answers[1..], resultLower, name);
      if name in WinnerNames(answers[1..], resultLower) {
        var i :| 0 <= i < |answers[1..]| && answers[1..][i].user == name && Lower(answers[1..][i].text) == resultLower;
        assert answers[i + 1] == answers[1..][i];
      }
      if exists i :: 0 <= i < |answers| && answers[i].user == name && Lower(answers[i].text) == resultLower {
        var i :| 0 <= i < |answers| && answers[i].user == name && Lower(answers[i].text) == resultLower;
        if i > 0 {
          assert answers[1..][i - 1] == answers[i];
        }
      }
    }
  }

  /**
   * Winners keep table order: the winners of two tables one after the other
   * are the winners of the first table, then those of the second.
   */
  lemma {:induction false} WinnerNamesAppend(a: seq<Answer>, b: seq<Answer>, resultLower: string)
    ensures WinnerNames(a + b, resultLower) == WinnerNames(a, resultLower) + WinnerNames(b, resultLower)
  {
    if a == [] {
      assert a + b == b;
    } else {
      WinnerNamesAppend(a[1..], b, resultLower);
      assert (a + b)[0] == a[0] && (a + b)[1..] == a[1..] + b;
      var first := if Lower(a[0].text) == resultLower then [a[0].user] else [];
      AppendAssoc(first, WinnerNames(a[1..], resultLower), WinnerNames(b, resultLower));
    }
  }

  /**
   * A bet records the text for its user: a new user is appended, an existing
   * user keeps their place with the new text, every other bet stays, and users
   * stay unique.
   */
  lemma UpsertRecords(answers: seq<Answer>, user: string, text: string)
    requires UniqueUsers(answers)
    ensures var r := Upsert(answers, user, text);
      UniqueUsers(r)
      && (FindAnswer(answers, user) < 0 ==> r == answers + [Answer(user, text)])
      && (FindAnswer(answers, user) >= 0 ==> |r| == |answers| && r[FindAnswer(answers, user)] == Answer(user, text))
      && (forall j :: 0 <= j < |answers| && answers[j].user != user ==> r[j] == answers[j])
  {
    var r := Upsert(answers, user, text);
    var i := FindAnswer(answers, user);
    if i < 0 {
      assert forall j :: 0 <= j < |answers| ==> r[j] == answers[j];
    } else {
      assert forall j :: 0 <= j < |r| && j != i ==> r[j] == answers[j];
    }
  }

  /** Every step keeps users unique in the table. */
  lemma StepKeepsUniqueUsers(t: BetTable, msg: Message)
    requires UniqueUsers(t.answers) && Step(t, msg).Success?
    ensures UniqueUsers(Step(t, msg).value.0.answers)
  {
    if !IsAdmin(msg.from) && t.state == Open {
      UpsertRecords(t.answers, msg.from, Join(Payload(msg.text), " "));
    }
  }

  /** The admin's messages are never recorded as bets: they keep the table or, on `result`, clear it. */
  lemma AdminNeverBets(t: BetTable, msg: Message)
    requires IsAdmin(msg.from) && Step(t, msg).Success?
    ensures Step(t, msg).value.0.answers in {t.answers, []}
  {
  }

  /** Outside an open round, other users' messages change nothing. */
  lemma ClosedRoundIgnoresBets(t: BetTable, msg: Message)
    requires !IsAdmin(msg.from) && t.state != Open
    ensures Step(t, msg) == Success((t, None))
  {
  }

  /** The feature object: its state field and its list of bets. */
  class Bets {
    const trigger: string
    var state: State
    var answers: seq<Answer>

    function Table(): BetTable
      reads this
    {
      BetTable(state, answers)
    }

    constructor ()
      ensures trigger == "bet" && Table() == BetTable(Idle, [])
    {
      trigger := "bet";
      state := Idle;
      answers := [];
    }

    /**
     * `act`: updates the state and the bets as `Step` says and returns the
     * reply it hands to its callback; on the TypeError nothing changes.
     */
    method Act(msg: Message) returns (outcome: Result<Option<FeatureResponse>, ActError>)
      modifies this
      ensures Step(old(Table()), msg).Failure? ==> outcome == Failure(Step(old(Table()), msg).error) && Table() == old(Table())
      ensures Step(old(Table()), msg).Success? ==>
        outcome == Success(Step(old(Table()), msg).value.1) && Table() == Step(old(Table()), msg).value.0
    {
      var answerText := "";
      var payload := Split(msg.text, ' ')[1..];
      if Lower(msg.from) == AdminUser {
        if payload == [] {
          // `command` is undefined and `command.toLowerCase()` throws
          return Failure(CommandUndefined);
        }
        var command := payload[0];
        if state == Idle && Lower(command) == "open" {
          state := Open;
          answerText := OpenedText;
        }
        if state == Open && Lower(command) == "close" {
          state := WaitingForResult;
          answerText := ClosedText;
        }
        if state == WaitingForResult && Lower(command) == "result" {
          var result := Join(payload[1..], " ");
          var resultLower := Lower(result);
          state := Idle;
          var winnerNames := WinnerNames(answers, resultLower);
          answerText := WinnersPrefix + Join(winnerNames, ", ");
          answers := [];
        }
      } else if state == Open {
        var betText := Join(payload, " ");
        var i := FindAnswer(answers, msg.from);
        if i < 0 {
          answers := answers + [Answer(msg.from, betText)];
        } else {
          answers := answers[i := Answer(answers[i].user, betText)];
        }
      }
      if answerText != "" {
        return Success(Some(FeatureResponse(Message(answerText, "", msg.channel, null))));
      }
      return Success(None);
    }
  }
}

=== FILE: gate.dfy ===
/**
 * The rate limit in front of the chat connection. A response is sent at once
 * while fewer than `limit` messages went out since the last reset; otherwise
 * it waits in a first-in first-out queue that holds no two equal responses.
 * A reset tick (every 30 seconds) clears the counter; a flush tick (every 10
 * seconds) sends from the head of the queue, at most a third of the limit
 * plus one per tick.
 */
module ResponseGate {
  import opened JsString
  import opened Messages

  /** A message handed to the connection: `send(channel, text)`. */
  datatype Sent = Sent(channel: string, text: string)

  /** The gate's state: messages sent since the last reset, the deferred queue, and everything sent so far. */
  datatype Gate = Gate(count: nat, queue: seq<FeatureResponse>, sent: seq<Sent>)

  function SentOf(r: FeatureResponse): Sent {
    Sent(r.message.channel, r.message.text)
  }

  /** The sends of a sequence of responses, in order. */
  function SentAll(rs: seq<FeatureResponse>): (s: seq<Sent>)
    ensures |s| == |rs|
  {
    if rs == [] then [] else [SentOf(rs[0])] + SentAll(rs[1..])
  }

  /** Only a response with both a text and a channel is sent or queued. */
  predicate Sendable(r: FeatureResponse) {
    r.message.text != "" && r.message.channel != ""
  }

  /** `isUnderMessageLimit`. */
  predicate UnderLimit(g: Gate, limit: nat) {
    g.count + 1 <= limit
  }

  /** No two entries of the queue are `responseEquals`. */
  predicate Distinct(q: seq<FeatureResponse>) {
    forall i, j :: 0 <= i < j < |q| ==> !ResponseEquals(q[i], q[j])
  }

  /** What the gate maintains: the counter within the limit, and a queue of distinct sendable responses. */
  predicate Valid(g: Gate, limit: nat) {
    g.count <= limit && Distinct(g.queue) && forall i :: 0 <= i < |g.queue| ==> Sendable(g.queue[i])
  }

  /** `deferResponse`: the queue with `r` appended, unless an equal response already waits. */
  function Defer(queue: seq<FeatureResponse>, r: FeatureResponse): seq<FeatureResponse> {
    if exists i :: 0 <= i < |queue| && ResponseEquals(queue[i], r) then queue else queue + [r]
  }

  /** `processResponse`: send under the limit, defer above it, ignore a response without text or channel. */
  function Submit(g: Gate, limit: nat, r: FeatureResponse): (g': Gate)
    ensures UnderLimit(g, limit) ==> g'.queue == g.queue
  {
    if !Sendable(r) then g
    else if UnderLimit(g, limit) then g.(count := g.count + 1, sent := g.sent + [SentOf(r)])
    else g.(queue := Defer(g.queue, r))
  }

  /**
   * The loop of `processDelayedMessages`, with `popped` entries already taken
   * in this tick: while the queue is not empty and the limit allows, take the
   * head and submit it; stop once more than a third of the limit was taken.
   */
  function FlushFrom(g: Gate, limit: nat, popped: nat): Gate
    decreases |g.queue|
  {
    if g.queue == [] then g
    else if !UnderLimit(g, limit) then g
    else
      var g' := Submit(g.(queue := g.queue[1..]), limit, g.queue[0]);
      if 3 * (popped + 1) > limit then g' else FlushFrom(g', limit, popped + 1)
  }

  /** The flush tick. */
  function Flush(g: Gate, limit: nat): Gate {
    FlushFrom(g, limit, 0)
  }

  /** The reset tick. */
  function Reset(g: Gate): Gate {
    g.(count := 0)
  }

  function Min(a: int, b: int): int {
    if a <= b then a else b
  }

  /** How many responses one flush tick sends: bounded by the queue, by the room under the limit, and by a third of the limit plus one. */
  function FlushCount(g: Gate, limit: nat): (k: nat)
    requires g.count <= limit
    ensures k <= |g.queue| && k <= limit / 3 + 1 && g.count + k <= limit
  {
    Min(|g.queue|, Min(limit - g.count, limit / 3 + 1))
  }

  /**
   * Submission: a response without text or channel changes nothing; under the
   * limit it is sent and counted; at the limit it is queued at the end unless
   * an equal response already waits, and nothing is sent. The gate stays valid.
   */
  lemma SubmitOutcome(g: Gate, limit: nat, r: FeatureResponse)
    requires Valid(g, limit)
    ensures !Sendable(r) ==> Submit(g, limit, r) == g
    ensures Sendable(r) && UnderLimit(g, limit) ==>
      Submit(g, limit, r) == Gate(g.count + 1, g.queue, g.sent + [SentOf(r)])
    ensures Sendable(r) && !UnderLimit(g, limit) ==>
      var g' := Submit(g, limit, r);
      g'.count == g.count && g'.sent == g.sent
      && (r in g.queue ==> g'.queue == g.queue)
      && (r !in g.queue ==> g'.queue == g.queue + [r])
    ensures Valid(Submit(g, limit, r), limit)
  {
    if Sendable(r) && !UnderLimit(g, limit) {
      var q := Defer(g.queue, r);
      if exists i :: 0 <= i < |g.queue| && ResponseEquals(g.queue[i], r) {
        var i :| 0 <= i < |g.queue| && ResponseEquals(g.queue[i], r);
        assert g.queue[i] == r;
      } else {
        assert q == g.queue + [r];
        assert q[|g.queue|] == r;
        assert Distinct(q) by {
          forall i, j | 0 <= i < j < |q|
            ensures !ResponseEquals(q[i], q[j])
          {
            if j == |g.queue| {
              assert q[i] == g.queue[i];
            } else {
              assert q[i] == g.queue[i] && q[j] == g.queue[j];
            }
          }
        }
      }
    }
  }

  /** The sends of `rs[..k]`: the first send and then those of the rest. */
  lemma SentAllPrefix(rs: seq<FeatureResponse>, k: nat)
    requires 1 <= k <= |rs|
    ensures SentAll(rs[..k]) == [SentOf(rs[0])] + SentAll(rs[1..][..k - 1])
  {
    assert rs[..k][1..] == rs[1..][..k - 1];
  }

  /**
   * A flush tick in closed form: it sends the first `FlushCount` queued
   * responses, in queue order, counts each of them, and leaves the rest queued
   * in their order; the gate stays valid.
   */
  lemma FlushBatch(g: Gate, limit: nat)
    requires Valid(g, limit)
    ensures var k := FlushCount(g, limit);
      Flush(g, limit) == Gate(g.count + k, g.queue[k..], g.sent + SentAll(g.queue[..k]))
    ensures Valid(Flush(g, limit), limit)
  {
    FlushFromBatch(g, limit, 0);
    var k := FlushCount(g, limit);
    SuffixKeepsValid(g, limit, k);
  }

  /** A valid gate with a queue suffix and a count that stays within the limit is valid. */
  lemma SuffixKeepsValid(g: Gate, limit: nat, k: nat)
    requires Valid(g, limit) && k <= |g.queue| && g.count + k <= limit
    ensures Valid(Gate(g.count + k, g.queue[k..], g.sent + SentAll(g.queue[..k])), limit)
  {
    var q := g.queue[k..];
    assert forall i :: 0 <= i < |q| ==> q[i] == g.queue[k + i];
  }

  lemma {:induction false} FlushFromBatch(g: Gate, limit: nat, popped: nat)
    requires Valid(g, limit) && 3 * popped <= limit
    ensures var k := Min(|g.queue|, Min(limit - g.count, limit / 3 + 1 - popped));
      FlushFrom(g, limit, popped) == Gate(g.count + k, g.queue[k..], g.sent + SentAll(g.queue[..k]))
    decreases |g.queue|
  {
    var k := Min(|g.queue|, Min(limit - g.count, limit / 3 + 1 - popped));
    if g.queue == [] || !UnderLimit(g, limit) {
      assert k == 0;
      assert g.queue[..0] == [];
    } else {
      var g' := Gate(g.count + 1, g.queue[1..], g.sent + [SentOf(g.queue[0])]);
      PopStep(g, limit, popped);
      BatchAfterPop(g, k);
      if 3 * (popped + 1) <= limit {
        FlushFromBatch(g', limit, popped + 1);
      }
    }
  }

  /** One iteration of the flush loop: the head is sent and counted, and the rest of the queue stays valid. */
  lemma PopStep(g: Gate, limit: nat, popped: nat)
    requires Valid(g, limit) && g.queue != [] && UnderLimit(g, limit)
    ensures var g' := Gate(g.count + 1, g.queue[1..], g.sent + [SentOf(g.queue[0])]);
      Valid(g', limit)
      && FlushFrom(g, limit, popped) == if 3 * (popped + 1) > limit then g' else FlushFrom(g', limit, popped + 1)
  {
    SuffixKeepsValid(g, limit, 1);
    assert g.queue[..1] == [g.queue[0]];
  }

  /** Taking `k` entries after the head is taking `k + 1` from the start. */
  lemma BatchAfterPop(g: Gate, k: nat)
    requires 1 <= k <= |g.queue|
    ensures var q := g.queue;
      Gate(g.count + 1 + (k - 1), q[1..][k - 1..], (g.sent + [SentOf(q[0])]) + SentAll(q[1..][..k - 1]))
      == Gate(g.count + k, q[k..], g.sent + SentAll(q[..k]))
  {
    var q := g.queue;
    SentAllPrefix(q, k);
    AppendAssoc(g.sent, [SentOf(q[0])], SentAll(q[1..][..k - 1]));
    assert q[1..][k - 1..] == q[k..];
  }
}

=== FILE: jsnumber.dfy ===
/**
 * Decimal decoding of tag values. JavaScript's `Number.parseFloat` and
 * `Number.parseInt` read the longest numeric prefix of a string and give NaN
 * when there is none; this model reads the longest prefix of ASCII digits as
 * a natural number and gives 0 where JavaScript would give NaN.
 */
module JsNumber {

  predicate IsDigit(c: char) {
    '0' <= c <= '9'
  }

  function DigitValue(c: char): (d: nat)
    requires IsDigit(c)
    ensures d < 10
  {
    c as int - '0' as int
  }

  function DigitChar(d: nat): (c: char)
    requires d < 10
    ensures IsDigit(c) && DigitValue(c) == d
  {
    ('0' as int + d) as char
  }

  predicate AllDigits(s: string) {
    forall i :: 0 <= i < |s| ==> IsDigit(s[i])
  }

  /** The length of the run of digits `s` starts with. */
  function LeadingDigits(s: string): (n: nat)
    ensures n <= |s|
    ensures AllDigits(s[..n])
    ensures n == |s| || !IsDigit(s[n])
  {
    if s != [] && IsDigit(s[0]) then
      var k := LeadingDigits(s[1..]);
      assert s[..k + 1] == [s[0]] + s[1..][..k];
      k + 1
    else 0
  }

  /** The value of a string of decimal digits, most significant first. */
  function DecimalValue(d: string): nat
    requires AllDigits(d)
  {
    if d == [] then 0 else 10 * DecimalValue(d[..|d| - 1]) + DigitValue(d[|d| - 1])
  }

  /** The numeric prefix of `s`; 0 stands for JavaScript's NaN when `s` does not start with a digit. */
  function ParseNumber(s: string): (n: nat)
  {
    var k := LeadingDigits(s);
    if k == 0 then 0 else DecimalValue(s[..k])
  }

  /** The shortest decimal spelling of `n`, as the chat platform writes numbers. */
  function ShowNat(n: nat): (s: string)
    ensures |s| >= 1 && AllDigits(s)
  {
    if n < 10 then [DigitChar(n)] else ShowNat(n / 10) + [DigitChar(n % 10)]
  }

  /** A string of digits holds no character that is not a digit. */
  lemma DigitsAvoid(s: string, c: char)
    requires AllDigits(s) && !IsDigit(c)
    ensures c !in s
  {
  }

  lemma {:induction false} DecimalValueOfShowNat(n: nat)
    ensures DecimalValue(ShowNat(n)) == n
  {
    var s := ShowNat(n);
    if n >= 10 {
      DecimalValueOfShowNat(n / 10);
      assert s[..|s| - 1] == ShowNat(n / 10);
    } else {
      assert s[..|s| - 1] == [];
    }
  }

  /**
   * Decoding reads back what the platform writes: the spelling of `n`, followed
   * by anything that does not continue the digit run, decodes to `n`.
   */
  lemma {:induction false} ParseShowNat(n: nat, rest: string)
    requires rest == [] || !IsDigit(rest[0])
    ensures ParseNumber(ShowNat(n) + rest) == n
  {
    var s := ShowNat(n) + rest;
    var k := |ShowNat(n)|;
    assert s[..k] == ShowNat(n);
    assert AllDigits(s[..k]);
    assert LeadingDigits(s) == k by {
      LeadingDigitsOfDigitsThenOther(ShowNat(n), rest);
    }
    DecimalValueOfShowNat(n);
  }

  lemma {:induction false} LeadingDigitsOfDigitsThenOther(d: string, rest: string)
    requires AllDigits(d)
    requires rest == [] || !IsDigit(rest[0])
    ensures LeadingDigits(d + rest) == |d|
  {
    if d != [] {
      LeadingDigitsOfDigitsThenOther(d[1..], rest);
      assert (d + rest)[1..] == d[1..] + rest;
    } else {
      assert d + rest == rest;
    }
  }
}

=== FILE: jsstring.dfy ===
/**
 * The few JavaScript string operations the message pipeline relies on,
 * written over `seq<char>`: `split` with a one-character separator,
 * `join` with any separator, `toLowerCase`, `trim`, `indexOf` and
 * `startsWith`.
 */
module JsString {

  /** Lower-cases one character; only the ASCII letters A-Z change. */
  function LowerChar(c: char): (d: char)
    ensures !('A' <= d <= 'Z')
    ensures 'A' <= c <= 'Z' ==> d as int == c as int + 32
    ensures !('A' <= c <= 'Z') ==> d == c
  {
    if 'A' <= c <= 'Z' then (c as int + 32) as char else c
  }

  /** `s.toLowerCase()`, restricted to ASCII letters. */
  function Lower(s: string): (r: string)
    ensures |r| == |s|
    ensures forall i :: 0 <= i < |s| ==> r[i] == LowerChar(s[i])
  {
    if s == [] then [] else [LowerChar(s[0])] + Lower(s[1..])
  }

  /** No character of `s` is an upper-case ASCII letter. */
  predicate IsLowerCase(s: string) {
    forall i :: 0 <= i < |s| ==> !('A' <= s[i] <= 'Z')
  }

  lemma LowerIsLowerCase(s: string)
    ensures IsLowerCase(Lower(s))
    ensures Lower(Lower(s)) == Lower(s)
  {
  }

  /** Lower-casing leaves a string without upper-case letters unchanged. */
  lemma LowerOfLowerCase(s: string)
    requires IsLowerCase(s)
    ensures Lower(s) == s
  {
  }

  /** `s.split(sep)` for a one-character separator: always at least one piece. */
  function Split(s: string, sep: char): (parts: seq<string>)
    ensures |parts| >= 1
    ensures forall i :: 0 <= i < |parts| ==> sep !in parts[i]
  {
    if s == [] then [""]
    else
      var rest := Split(s[1..], sep);
      if s[0] == sep then [""] + rest
      else [[s[0]] + rest[0]] + rest[1..]
  }

  /** A split yields a single piece exactly when the separator does not occur. */
  lemma {:induction false} SplitSinglePiece(s: string, sep: char)
    ensures |Split(s, sep)| == 1 <==> sep !in s
  {
    if s != [] {
      SplitSinglePiece(s[1..], sep);
      assert s == [s[0]] + s[1..];
    }
  }

  /** Concatenation is associative; stated once so that proofs need not unfold what is concatenated. */
  lemma AppendAssoc<T>(a: seq<T>, b: seq<T>, c: seq<T>)
    ensures (a + b) + c == a + (b + c)
  {
  }

  /** `parts.join(sep)`. */
  function Join(parts: seq<string>, sep: string): string {
    if parts == [] then ""
    else if |parts| == 1 then parts[0]
    else parts[0] + sep + Join(parts[1..], sep)
  }

  /** Joining the pieces of a split with the same separator gives back the string. */
  lemma {:induction false} JoinSplit(s: string, sep: char)
    ensures Join(Split(s, sep), [sep]) == s
  {
    if s != [] {
      var rest := Split(s[1..], sep);
      JoinSplit(s[1..], sep);
      if s[0] == sep {
        assert Split(s, sep) == [""] + rest;
      } else {
        var parts := Split(s, sep);
        assert parts == [[s[0]] + rest[0]] + rest[1..];
        if |rest| == 1 {
          assert Join(parts, [sep]) == [s[0]] + rest[0];
        } else {
          assert Join(parts, [sep]) == [s[0]] + rest[0] + [sep] + Join(rest[1..], [sep]);
          assert Join(rest, [sep]) == rest[0] + [sep] + Join(rest[1..], [sep]);
        }
        assert s == [s[0]] + s[1..];
      }
    }
  }

  /** A string without the separator splits into itself. */
  lemma {:induction false} SplitWithoutSeparator(x: string, sep: char)
    requires sep !in x
    ensures Split(x, sep) == [x]
  {
    if x != [] {
      SplitWithoutSeparator(x[1..], sep);
      assert [x[0]] + x[1..] == x;
    }
  }

  /** Splitting `x + sep + y`, where `x` holds no separator, yields `x` and then the pieces of `y`. */
  lemma {:induction false} SplitAtFirstSeparator(x: string, sep: char, y: string)
    requires sep !in x
    ensures Split(x + [sep] + y, sep) == [x] + Split(y, sep)
  {
    var s := x + [sep] + y;
    if x == [] {
      assert s[0] == sep && s[1..] == y;
    } else {
      assert s[0] == x[0] && s[1..] == x[1..] + [sep] + y;
      SplitAtFirstSeparator(x[1..], sep, y);
      assert [x[0]] + x[1..] == x;
    }
  }

  /** Splitting a join of separator-free pieces gives the pieces back. */
  lemma {:induction false} SplitJoin(parts: seq<string>, sep: char)
    requires |parts| >= 1
    requires forall i :: 0 <= i < |parts| ==> sep !in parts[i]
    ensures Split(Join(parts, [sep]), sep) == parts
  {
    if |parts| == 1 {
      SplitWithoutSeparator(parts[0], sep);
    } else {
      SplitJoin(parts[1..], sep);
      SplitAtFirstSeparator(parts[0], sep, Join(parts[1..], [sep]));
      assert [parts[0]] + parts[1..] == parts;
    }
  }

  /** A join of pieces without `c`, by a separator without `c`, holds no `c`. */
  lemma {:induction false} JoinAvoids(parts: seq<string>, sep: string, c: char)
    requires forall i :: 0 <= i < |parts| ==> c !in parts[i]
    requires c !in sep
    ensures c !in Join(parts, sep)
  {
    if |parts| > 1 {
      JoinAvoids(parts[1..], sep, c);
      assert Join(parts, sep) == parts[0] + sep + Join(parts[1..], sep);
    }
  }

  /** `s.indexOf(c)`: the first position of `c`, or -1. */
  function IndexOf(s: string, c: char): (i: int)
    ensures -1 <= i < |s|
    ensures i == -1 <==> c !in s
    ensures i >= 0 ==> s[i] == c && c !in s[..i]
  {
    if s == [] then -1
    else if s[0] == c then 0
    else
      var k := IndexOf(s[1..], c);
      assert s[1..][..k + 1] == s[1..k + 2] by { if k >= 0 { assert k + 2 <= |s|; } }
      if k < 0 then -1 else k + 1
  }

  /** `s.startsWith(prefix)`. */
  predicate StartsWith(s: string, prefix: string) {
    |prefix| <= |s| && s[..|prefix|] == prefix
  }

  /**
   * The white space this model's `trim` removes: ASCII white space, no-break
   * space, BOM and the line separators. JavaScript's `trim` also removes the
   * other Unicode space separators (U+1680, U+2000 to U+200A, U+202F, U+205F,
   * U+3000); this subset leaves them.
   */
  predicate IsWhitespace(c: char) {
    c == ' ' || c == '\t' || c == '\n' || c == '\r' || c == '\U{B}' || c == '\U{C}'
    || c == '\U{A0}' || c == '\U{FEFF}' || c == '\U{2028}' || c == '\U{2029}'
  }

  /** The number of white-space characters `s` starts with. */
  function LeadingWhitespace(s: string): (n: nat)
    ensures n <= |s|
  {
    if s != [] && IsWhitespace(s[0]) then 1 + LeadingWhitespace(s[1..]) else 0
  }

  /** `s` without its trailing white space. */
  function TrimEnd(s: string): (r: string)
    ensures |r| <= |s|
  {
    if s != [] && IsWhitespace(s[|s| - 1]) then TrimEnd(s[..|s| - 1]) else s
  }

  /** `s.trim()`: `s` without its leading and trailing white space. */
  function Trim(s: string): (r: string)
    ensures |r| <= |s|
  {
    TrimEnd(s[LeadingWhitespace(s)..])
  }

  lemma {:induction false} LeadingWhitespaceSpec(s: string)
    ensures forall i :: 0 <= i < LeadingWhitespace(s) ==> IsWhitespace(s[i])
    ensures LeadingWhitespace(s) == |s| || !IsWhitespace(s[LeadingWhitespace(s)])
  {
    if s != [] && IsWhitespace(s[0]) {
      LeadingWhitespaceSpec(s[1..]);
    }
  }

  lemma {:induction false} TrimEndSpec(s: string)
    ensures TrimEnd(s) == s[..|TrimEnd(s)|]
    ensures forall i :: |TrimEnd(s)| <= i < |s| ==> IsWhitespace(s[i])
    ensures TrimEnd(s) == [] || !IsWhitespace(TrimEnd(s)[|TrimEnd(s)| - 1])
  {
    if s != [] && IsWhitespace(s[|s| - 1]) {
      TrimEndSpec(s[..|s| - 1]);
    }
  }

  /**
   * `trim` removes exactly the white space at both ends: what it keeps is a
   * contiguous piece of `s` that neither starts nor ends with white space, and
   * everything before and after that piece is white space.
   */
  lemma TrimSpec(s: string)
    ensures var n := LeadingWhitespace(s); var r := Trim(s);
      n + |r| <= |s| && r == s[n..n + |r|]
      && (forall i :: 0 <= i < n ==> IsWhitespace(s[i]))
      && (forall i :: n + |r| <= i < |s| ==> IsWhitespace(s[i]))
      && (r == [] || (!IsWhitespace(r[0]) && !IsWhitespace(r[|r| - 1])))
  {
    var n := LeadingWhitespace(s);
    LeadingWhitespaceSpec(s);
    TrimEndSpec(s[n..]);
    var r := Trim(s);
    assert forall i :: |r| <= i < |s| - n ==> IsWhitespace(s[n..][i]);
    if r != [] {
      assert r[0] == s[n];
    }
  }

  /** Trimming keeps a string free of upper-case letters. */
  lemma TrimKeepsLowerCase(s: string)
    requires IsLowerCase(s)
    ensures IsLowerCase(Trim(s))
  {
    TrimSpec(s);
    var r := Trim(s);
    var k := LeadingWhitespace(s);
    assert forall i :: 0 <= i < |r| ==> r[i] == s[k + i];
  }
}

=== FILE: messages.dfy ===
/**
 * Chat messages and the responses features hand back to the processor.
 */
module Messages {
  import opened TagParser

  /**
   * A chat message: its text, sender and channel, and the parsed metadata
   * object it arrived with. `tags` is an object reference, so two messages
   * carry the same tags only when they share the same object; a missing
   * `tags` argument and an explicit `null` both give `null`.
   */
  datatype Message = Message(text: string, from: string, channel: string, tags: Tags?)

  /** What a feature asks the processor to send. */
  datatype FeatureResponse = FeatureResponse(message: Message)

  /**
   * `responseEquals`: two responses are equal when they are the same or agree
   * on channel, sender, tags object and text, which are all a message holds.
   */
  function ResponseEquals(m1: FeatureResponse, m2: FeatureResponse): (equal: bool)
    ensures equal <==> m1 == m2
  {
    m1 == m2
    || (m1.message.channel == m2.message.channel
        && m1.message.from == m2.message.from
        && m1.message.tags == m2.message.tags
        && m1.message.text == m2.message.text)
  }
}

=== FILE: processor.dfy ===
/**
 * The message processor: it owns the feature registry and the response gate.
 * Incoming messages are routed to features; responses from features pass the
 * rate limit before they reach the chat connection. The connection's `send`
 * appends to the ghost log `sent`; the two periodic timers are the methods
 * `ResetMessageCount` (every 30 seconds) and `ProcessDelayedMessages` (every
 * 10 seconds), called explicitly.
 */
module Processor {
  import opened Wrappers
  import opened JsString
  import opened Messages
  import opened Routing
  import opened ResponseGate

  class MessageProcessor {
    var featureMap: Registry
    /** The features whose `setup` was called, in order. */
    ghost var setupCalls: seq<Feature>
    var delayedMessages: seq<FeatureResponse>
    var messageCount30Sec: nat
    /** Everything handed to the chat connection's `send`, in order. */
    ghost var sent: seq<Sent>
    /** The configured `msgLimitPer30Sec`. */
    const msgLimitPer30Sec: nat

    /** The rate-limit state as the gate's specification sees it. */
    ghost function GateState(): Gate
      reads this
    {
      Gate(messageCount30Sec, delayedMessages, sent)
    }

    /** The registry is well formed, the counter is within the limit and the queue holds distinct sendable responses. */
    ghost predicate Valid()
      reads this
    {
      WellFormed(featureMap) && ResponseGate.Valid(GateState(), msgLimitPer30Sec)
    }

    constructor (msgLimitPer30Sec: nat)
      ensures this.msgLimitPer30Sec == msgLimitPer30Sec
      ensures featureMap == map[] && setupCalls == [] && GateState() == Gate(0, [], [])
      ensures Valid()
    {
      this.msgLimitPer30Sec := msgLimitPer30Sec;
      featureMap := map[];
      setupCalls := [];
      delayedMessages := [];
      messageCount30Sec := 0;
      sent := [];
    }

    /** `resetMessageCount`, the 30-second tick. */
    method ResetMessageCount()
      modifies this`messageCount30Sec
      ensures GateState() == Reset(old(GateState()))
      ensures old(Valid()) ==> Valid()
    {
      messageCount30Sec := 0;
    }

    /**
     * `processDelayedMessages`, the 10-second tick: sends from the head of the
     * queue while the limit allows, at most a third of the limit plus one.
     */
    method ProcessDelayedMessages()
      modifies this`messageCount30Sec, this`delayedMessages, this`sent
      ensures GateState() == Flush(old(GateState()), msgLimitPer30Sec)
      ensures old(Valid()) ==> Valid()
    {
      var count := 0;
      while |delayedMessages| > 0
        invariant Flush(old(GateState()), msgLimitPer30Sec) == FlushFrom(GateState(), msgLimitPer30Sec, count)
        invariant featureMap == old(featureMap)
        decreases |delayedMessages|
      {
        if !IsUnderMessageLimit() {
          break;
        }
        var msg := delayedMessages[0];
        delayedMessages := delayedMessages[1..];
        ProcessResponse(msg);
        count := count + 1;
        // `count > msgLimitPer30Sec / 3`, with JavaScript's exact division
        if 3 * count > msgLimitPer30Sec {
          break;
        }
      }
      if old(Valid()) {
        FlushBatch(old(GateState()), msgLimitPer30Sec);
      }
    }

    /**
     * `registerFeature`: calls the feature's `setup`, then files it under its
     * normalised trigger. `setupThrows` says whether that `setup` throws; the
     * exception then leaves the method and the feature is not filed.
     */
    method RegisterFeature(plugin: Feature, setupThrows: bool) returns (completed: bool)
      modifies this`featureMap, this`setupCalls
      ensures completed == !setupThrows
      ensures setupCalls == old(setupCalls) + [plugin]
      ensures featureMap == if setupThrows then old(featureMap) else Register(old(featureMap), plugin)
      ensures old(Valid()) ==> Valid()
    {
      setupCalls := setupCalls + [plugin];
      if setupThrows {
        return false;
      }
      completed := true;
      if plugin.trigger.None? {
        return;
      }
      FileFeature(plugin, plugin.trigger.value);
      if old(Valid()) {
        RegisterKeepsWellFormed(old(featureMap), plugin);
      }
    }

    /** Files a feature with a trigger in the bucket of the normalised trigger, unless it is already there. */
    method FileFeature(plugin: Feature, pluginTrigger: string)
      requires plugin.trigger == Some(pluginTrigger)
      modifies this`featureMap
      ensures featureMap == Register(old(featureMap), plugin)
    {
      var trigger := Normalise(pluginTrigger);  // toLowerCase().trim()
      var featureList: seq<Feature>;
      if trigger in featureMap {
        featureList := featureMap[trigger];
      } else {
        featureList := [];
        featureMap := featureMap[trigger := featureList];
      }
      assert featureList == Bucket(old(featureMap), trigger);
      if plugin !in featureList {
        featureMap := featureMap[trigger := featureList + [plugin]];
        assert featureMap == old(featureMap)[trigger := featureList + [plugin]];
      }
    }

    /**
     * `process`: runs the features under the empty trigger, then those under
     * the message's trigger, if any. `throwing` holds the features whose `act`
     * throws on this message; the first of them to run ends `process`, and
     * `completed` is false.
     */
    method Process(message: Message, throwing: set<Feature>) returns (invoked: seq<Feature>, completed: bool)
      ensures invoked == RunUntilThrow(Dispatched(featureMap, message.text), throwing)
      ensures completed <==> !Throws(Dispatched(featureMap, message.text), throwing)
    {
      var alwaysTriggered := if "" in featureMap then Some(featureMap[""]) else None;
      invoked, completed := InvokePlugins(message, alwaysTriggered, throwing);
      ghost var rest := match GetTrigger(message.text) case None => [] case Some(t) => Bucket(featureMap, t);
      assert Dispatched(featureMap, message.text) == Bucket(featureMap, "") + rest;
      RunAppend(Bucket(featureMap, ""), rest, throwing);
      RunWithoutThrow(Bucket(featureMap, ""), throwing);
      if !completed {
        ThrowsAppend(Bucket(featureMap, ""), rest, throwing);
        return;
      }
      var trigger := GetTrigger(message.text);
      if trigger.None? {
        assert rest == [] && Bucket(featureMap, "") + rest == Bucket(featureMap, "");
        return;
      }
      var thisTimeTriggered := if trigger.value in featureMap then Some(featureMap[trigger.value]) else None;
      var more;
      more, completed := InvokePlugins(message, thisTimeTriggered, throwing);
      invoked := invoked + more;
      ThrowsAppend(Bucket(featureMap, ""), rest, throwing);
    }

    /**
     * `invokePlugins`: calls `act` on each feature of the bucket, in order,
     * until one throws; returns the features called and whether none threw.
     */
    method InvokePlugins(msg: Message, plugins: Option<seq<Feature>>, throwing: set<Feature>)
      returns (acted: seq<Feature>, completed: bool)
      ensures var features := if plugins.Some? then plugins.value else [];
        acted == RunUntilThrow(features, throwing) && (completed <==> !Throws(features, throwing))
    {
      acted, completed := [], true;
      if plugins.Some? {
        var features := plugins.value;
        for i := 0 to |features|
          invariant acted == features[..i]
          invariant RunUntilThrow(features, throwing) == acted + RunUntilThrow(features[i..], throwing)
          invariant Throws(features, throwing) <==> Throws(features[i..], throwing)
        {
          RunStep(features, i, throwing);
          acted := acted + [features[i]];
          if features[i] in throwing {
            return acted, false;
          }
          AppendAssoc(features[..i], [features[i]], RunUntilThrow(features[i + 1..], throwing));
          assert features[..i] + [features[i]] == features[..i + 1];
        }
        assert features[|features|..] == [];
      }
    }

    /** `processResponse`: the callback features send their responses to. */
    method ProcessResponse(r: FeatureResponse)
      modifies this`messageCount30Sec, this`delayedMessages, this`sent
      ensures GateState() == Submit(old(GateState()), msgLimitPer30Sec, r)
      ensures old(Valid()) ==> Valid()
    {
      if old(Valid()) {
        SubmitOutcome(GateState(), msgLimitPer30Sec, r);
      }
      if r.message.text != "" && r.message.channel != "" {
        if IsUnderMessageLimit() {
          messageCount30Sec := messageCount30Sec + 1;
          sent := sent + [Sent(r.message.channel, r.message.text)];
        } else {
          DeferResponse(r);
        }
      }
    }

    /** `isUnderMessageLimit`. */
    predicate IsUnderMessageLimit()
      reads this
      ensures IsUnderMessageLimit() <==> UnderLimit(GateState(), msgLimitPer30Sec)
      ensures IsUnderMessageLimit() ==> messageCount30Sec < msgLimitPer30Sec
    {
      messageCount30Sec + 1 <= msgLimitPer30Sec
    }

    /** `deferResponse`: queues `msg` at the end unless an equal response already waits. */
    method DeferResponse(msg: FeatureResponse)
      modifies this`delayedMessages
      ensures delayedMessages == Defer(old(delayedMessages), msg)
    {
      var queue := delayedMessages;
      for i := 0 to |queue|
        invariant forall j :: 0 <= j < i ==> !ResponseEquals(queue[j], msg)
      {
        if ResponseEquals(queue[i], msg) {
          return;
        }
      }
      delayedMessages := queue + [msg];
    }
  }
}

=== FILE: router.dfy ===
/**
 * The feature router of the message processor: features register under a
 * trigger word, and each incoming message runs the features registered under
 * the empty trigger and then those registered under the `!word` the message
 * starts with.
 */
module Routing {
  import opened Wrappers
  import opened JsString

  /**
   * A registered feature. Only its identity and its trigger matter to the
   * router; what its `setup` and `act` do is outside this model.
   */
  class Feature {
    const trigger: Option<string>

    constructor (trigger: Option<string>)
      ensures this.trigger == trigger
    {
      this.trigger := trigger;
    }
  }

  /** The registry: trigger to the features registered under it, in registration order. */
  type Registry = map<string, seq<Feature>>

  /** `toLowerCase().trim()` of a trigger: the key it is registered under. */
  function Normalise(trigger: string): string {
    Trim(Lower(trigger))
  }

  /** Registry keys are lower case and neither start nor end with white space. */
  lemma NormaliseSpec(trigger: string)
    ensures var key := Normalise(trigger);
      IsLowerCase(key) && (key == [] || (!IsWhitespace(key[0]) && !IsWhitespace(key[|key| - 1])))
  {
    LowerIsLowerCase(trigger);
    TrimKeepsLowerCase(Lower(trigger));
    TrimSpec(Lower(trigger));
  }

  /** `featureMap.get(key)`, with a missing key read as no features. */
  function Bucket(m: Registry, key: string): seq<Feature> {
    if key in m then m[key] else []
  }

  predicate NoDuplicates(fs: seq<Feature>) {
    forall i, j :: 0 <= i < j < |fs| ==> fs[i] != fs[j]
  }

  /**
   * The registry as `registerFeature` keeps it: each bucket holds distinct
   * features, at least one, all of them registered under a trigger that
   * normalises to the bucket's key.
   */
  predicate WellFormed(m: Registry) {
    forall key :: key in m ==>
      m[key] != [] && NoDuplicates(m[key])
      && forall f :: f in m[key] ==> f.trigger.Some? && Normalise(f.trigger.value) == key
  }

  /** `registerFeature` on the registry: a feature without trigger is not filed; a feature already filed is not added again. */
  function Register(m: Registry, f: Feature): Registry {
    if f.trigger.None? then m
    else
      var key := Normalise(f.trigger.value);
      var featureList := Bucket(m, key);
      if f in featureList then m else m[key := featureList + [f]]
  }

  /** Registration keeps the registry well formed. */
  lemma RegisterKeepsWellFormed(m: Registry, f: Feature)
    requires WellFormed(m)
    ensures WellFormed(Register(m, f))
  {
    if f.trigger.Some? {
      var key := Normalise(f.trigger.value);
      var featureList := Bucket(m, key);
      if f !in featureList {
        var fs := featureList + [f];
        assert NoDuplicates(fs) by {
          forall i, j | 0 <= i < j < |fs|
            ensures fs[i] != fs[j]
          {
            if j == |featureList| {
              assert fs[i] in featureList;
            }
          }
        }
      }
    }
  }

  /**
   * Registering a feature already filed changes nothing. Registering keeps
   * every bucket's earlier entries in order and adds at most one feature, at the end of the bucket of its normalised trigger, where it
   * is present afterwards; every other bucket, and every bucket when the
   * feature has no trigger, stays as it was.
   */
  lemma RegisterFiles(m: Registry, f: Feature, key: string)
    ensures f.trigger.Some? && f in Bucket(m, Normalise(f.trigger.value)) ==> Register(m, f) == m
    ensures Bucket(m, key) <= Bucket(Register(m, f), key)
    ensures |Bucket(Register(m, f), key)| <= |Bucket(m, key)| + 1
    ensures f.trigger.Some? ==> f in Bucket(Register(m, f), Normalise(f.trigger.value))
    ensures f.trigger.None? || key != Normalise(f.trigger.value) ==> Bucket(Register(m, f), key) == Bucket(m, key)
  {
  }

  /** Registering the same feature twice is the same as registering it once. */
  lemma RegisterIdempotent(m: Registry, f: Feature)
    ensures Register(Register(m, f), f) == Register(m, f)
  {
    if f.trigger.Some? {
      var key := Normalise(f.trigger.value);
      assert f in Bucket(Register(m, f), key);
    }
  }

  /**
   * `getTrigger`: the word after a leading `!`, lower-cased when a space
   * follows it and kept as it is when it runs to the end of the text.
   */
  function GetTrigger(text: string): (trigger: Option<string>)
    ensures trigger.None? <==> text == [] || text[0] != '!' || (|text| > 1 && text[1] == ' ')
    ensures trigger.Some? && ' ' !in text ==> trigger.value == text[1..]
    ensures forall i :: 1 < i < |text| && text[0] == '!' && text[i] == ' ' && ' ' !in text[..i] ==> trigger == Some(Lower(text[1..i]))
    ensures trigger.Some? ==> ' ' !in trigger.value
  {
    if |text| == 0 then None
    else if !StartsWith(text, "!") then None
    else
      var spaceIndex := IndexOf(text, ' ');
      if spaceIndex == 1 then None
      else if spaceIndex == -1 then Some(text[1..])   // one word only
      else
        assert forall c :: c in Lower(text[1..spaceIndex]) ==> c != ' ';
        Some(Lower(text[1..spaceIndex]))
  }

  /** The features `process` runs for a message text, in the order it runs them. */
  function Dispatched(m: Registry, text: string): seq<Feature> {
    Bucket(m, "") + match GetTrigger(text) case None => [] case Some(trigger) => Bucket(m, trigger)
  }

  /**
   * A registered feature runs for a message exactly when it is registered
   * under the empty trigger or under the trigger the message starts with;
   * a feature never registered never runs.
   */
  lemma DispatchedIff(m: Registry, text: string, f: Feature)
    requires WellFormed(m)
    ensures f in Dispatched(m, text) <==>
      f.trigger.Some? && f in Bucket(m, Normalise(f.trigger.value))
      && (Normalise(f.trigger.value) == "" || GetTrigger(text) == Some(Normalise(f.trigger.value)))
  {
    if f in Dispatched(m, text) {
      if f in Bucket(m, "") {
        assert "" in m;
      } else {
        var trigger := GetTrigger(text).value;
        assert trigger in m && f in m[trigger];
      }
    }
  }

  /**
   * A one-word trigger keeps its case, and registered keys are lower case, so
   * a message such as `!Bet` runs only the features under the empty trigger.
   */
  lemma UpperCaseTriggerMissesItsBucket(m: Registry, text: string)
    requires WellFormed(m)
    requires GetTrigger(text).Some? && !IsLowerCase(GetTrigger(text).value)
    ensures Dispatched(m, text) == Bucket(m, "")
  {
    var trigger := GetTrigger(text).value;
    if trigger in m {
      var f := m[trigger][0];
      assert f in m[trigger];
      NormaliseSpec(f.trigger.value);
    }
  }

  /** The text `!` alone yields the empty trigger, so the features under it run twice. */
  lemma BangAloneRunsAlwaysTwice(m: Registry)
    ensures Dispatched(m, "!") == Bucket(m, "") + Bucket(m, "")
  {
    assert GetTrigger("!") == Some("");
  }

  /** Some feature of `fs` is in `throwing`. */
  predicate Throws(fs: seq<Feature>, throwing: set<Feature>) {
    exists i :: 0 <= i < |fs| && fs[i] in throwing
  }

  /** A list throws when its head or its tail does. */
  lemma ThrowsCons(fs: seq<Feature>, throwing: set<Feature>)
    requires fs != []
    ensures Throws(fs, throwing) <==> fs[0] in throwing || Throws(fs[1..], throwing)
  {
    if Throws(fs[1..], throwing) {
      var i :| 0 <= i < |fs[1..]| && fs[1..][i] in throwing;
      assert fs[i + 1] == fs[1..][i];
    }
    if Throws(fs, throwing) && fs[0] !in throwing {
      var i :| 0 <= i < |fs| && fs[i] in throwing;
      assert fs[1..][i - 1] == fs[i];
    }
  }

  /**
   * The features whose `act` is called when `fs` are called in order and the
   * features in `throwing` throw: every one up to and including the first
   * that throws, since nothing catches the exception.
   */
  function RunUntilThrow(fs: seq<Feature>, throwing: set<Feature>): seq<Feature> {
    if fs == [] then []
    else if fs[0] in throwing then [fs[0]]
    else [fs[0]] + RunUntilThrow(fs[1..], throwing)
  }

  /**
   * The run is a prefix of the list, empty only for the empty list; no
   * feature before its last one throws, and it stops short of the end only
   * after a feature that throws.
   */
  lemma {:induction false} RunUntilThrowSpec(fs: seq<Feature>, throwing: set<Feature>)
    ensures var ran := RunUntilThrow(fs, throwing);
      ran <= fs && (fs != [] ==> ran != [])
      && (forall i :: 0 <= i < |ran| - 1 ==> ran[i] !in throwing)
      && (|ran| < |fs| ==> ran[|ran| - 1] in throwing)
  {
    if fs != [] && fs[0] !in throwing {
      RunUntilThrowSpec(fs[1..], throwing);
      var rest := RunUntilThrow(fs[1..], throwing);
      assert fs == [fs[0]] + fs[1..];
      forall i | 0 <= i < |rest|
        ensures ([fs[0]] + rest)[i + 1] == rest[i]
      {
      }
    }
  }

  /** One call: the head runs; if it throws the run ends there, otherwise the rest follows. */
  lemma RunStep(fs: seq<Feature>, i: nat, throwing: set<Feature>)
    requires i < |fs|
    ensures RunUntilThrow(fs[i..], throwing) ==
      if fs[i] in throwing then [fs[i]] else [fs[i]] + RunUntilThrow(fs[i + 1..], throwing)
    ensures Throws(fs[i..], throwing) <==> fs[i] in throwing || Throws(fs[i + 1..], throwing)
  {
    ThrowsCons(fs[i..], throwing);
    assert fs[i..][0] == fs[i] && fs[i..][1..] == fs[i + 1..];
  }

  /** Without a feature that throws, every feature is called; with one, the run ends at a feature that throws. */
  lemma {:induction false} RunWithoutThrow(fs: seq<Feature>, throwing: set<Feature>)
    ensures !Throws(fs, throwing) <==> RunUntilThrow(fs, throwing) == fs && (fs == [] || fs[|fs| - 1] !in throwing)
  {
    if fs != [] {
      ThrowsCons(fs, throwing);
      if fs[0] !in throwing {
        RunWithoutThrow(fs[1..], throwing);
        assert [fs[0]] + fs[1..] == fs;
      }
    }
  }

  /**
   * Calling two lists in a row: a feature of the first that throws ends the
   * run before the second starts; otherwise the whole first list runs and
   * then the second as far as its first thrower.
   */
  lemma {:induction false} RunAppend(a: seq<Feature>, b: seq<Feature>, throwing: set<Feature>)
    ensures Throws(a, throwing) ==> RunUntilThrow(a + b, throwing) == RunUntilThrow(a, throwing)
    ensures !Throws(a, throwing) ==> RunUntilThrow(a + b, throwing) == a + RunUntilThrow(b, throwing)
  {
    if a == [] {
      assert a + b == b;
    } else {
      ThrowsCons(a, throwing);
      var ab := a + b;
      assert ab[0] == a[0] && ab[1..] == a[1..] + b;
      if a[0] !in throwing {
        RunAppend(a[1..], b, throwing);
        assert RunUntilThrow(ab, throwing) == [a[0]] + RunUntilThrow(a[1..] + b, throwing);
        if !Throws(a, throwing) {
          AppendAssoc([a[0]], a[1..], RunUntilThrow(b, throwing));
          assert [a[0]] + a[1..] == a;
        }
      }
    }
  }

  /** Two lists in a row throw exactly when one of them does. */
  lemma ThrowsAppend(a: seq<Feature>, b: seq<Feature>, throwing: set<Feature>)
    ensures Throws(a + b, throwing) <==> Throws(a, throwing) || Throws(b, throwing)
  {
    if Throws(a, throwing) {
      var i :| 0 <= i < |a| && a[i] in throwing;
      assert (a + b)[i] == a[i];
    }
    if Throws(b, throwing) {
      var i :| 0 <= i < |b| && b[i] in throwing;
      assert (a + b)[|a| + i] == b[i];
    }
  }

  /**
   * A feature under the empty trigger that throws ends `process` before the
   * features under the message's trigger run.
   */
  lemma ThrowInAlwaysBucketSkipsTrigger(m: Registry, text: string, throwing: set<Feature>)
    requires Throws(Bucket(m, ""), throwing)
    ensures RunUntilThrow(Dispatched(m, text), throwing) == RunUntilThrow(Bucket(m, ""), throwing)
  {
    RunAppend(Bucket(m, ""), match GetTrigger(text) case None => [] case Some(trigger) => Bucket(m, trigger), throwing);
  }
}

=== FILE: tags.dfy ===
/**
 * The tag parser: it turns a chat line's `@key=value;key=value;...` metadata
 * prefix into a record of typed fields. Keys are matched case-insensitively
 * against a fixed table; bad values degrade to defaults. The pure functions
 * below specify the parse; the class `Tags` assigns its fields one key at a
 * time, as the program does, and is proved to agree with them.
 */
module TagParser {
  import opened Wrappers
  import opened JsString
  import opened JsNumber

  datatype UserType = Normal | Moderator | GlobalMod | Admin | Staff

  /** An emote occurrence: its numeric id and the positions it spans in the text. */
  datatype Emote = Emote(id: int, start: int, end: int)

  /** A tag value as read from a segment; `None` is JavaScript's `undefined`, which a segment without `=` yields. */
  type TagValue = Option<string>

  /** The TypeError raised when a string method is called on the undefined value of a key. */
  datatype TagError = UndefinedValue(key: Key)

  /** All fields of a `Tags` object. */
  datatype TagRecord = TagRecord(
    color: TagValue,
    displayName: TagValue,
    isEmoteOnly: bool,
    emoteList: seq<Emote>,
    messageId: TagValue,
    isMod: bool,
    roomId: int,
    isSubscriber: bool,
    serverReceivedMsgTime: int,
    isTurbo: bool,
    userId: int,
    userType: UserType,
    bits: int,
    badgeList: seq<string>)

  /** The field initialisers: empty strings, false, 0, `Normal`, no emotes and no badges. */
  const Defaults := TagRecord(Some(""), Some(""), false, [], Some(""), false, 0, false, 0, false, 0, Normal, 0, [])

  // ---------------------------------------------------------------------------
  // Value decoders

  /** `parseUserType`: the role named by `t`, ignoring case; any other name gives `Normal`. */
  function ParseUserType(t: string): (u: UserType)
    ensures u == Moderator <==> Lower(t) == "mod"
    ensures u == GlobalMod <==> Lower(t) == "global_mod"
    ensures u == Admin <==> Lower(t) == "admin"
    ensures u == Staff <==> Lower(t) == "staff"
  {
    var key := Lower(t);
    if key == "" then Normal
    else if key == "mod" then Moderator
    else if key == "global_mod" then GlobalMod
    else if key == "admin" then Admin
    else if key == "staff" then Staff
    else Normal
  }

  /** `parseBool`: everything but the exact string "0" is true, `undefined` included. */
  function ParseBool(b: TagValue): (r: bool)
    ensures !r <==> b == Some("0")
  {
    b != Some("0")
  }

  /** `parseInt`: the numeric prefix of the value; `undefined` decodes like a non-number, to 0. */
  function ParseInt(i: TagValue): (n: int)
    ensures n >= 0
    ensures i.None? ==> n == 0
  {
    match i
    case None => 0
    case Some(s) => ParseNumber(s)
  }

  // ---------------------------------------------------------------------------
  // Badges: `name/version,name/version,...`

  /** The part of a badge entry before its first `/`. */
  function BadgeName(entry: string): (name: string)
    ensures name <= entry
    ensures '/' !in name
    ensures |name| < |entry| ==> entry[|name|] == '/'
  {
    var parts := Split(entry, '/');
    JoinSplit(entry, '/');
    if |parts| == 1 then
      parts[0]
    else
      assert Join(parts, "/") == parts[0] + "/" + Join(parts[1..], "/");
      parts[0]
  }

  /** The non-empty badge names of the entries, in entry order. */
  function BadgesFrom(entries: seq<string>): (badges: seq<string>)
    ensures |badges| <= |entries|
    ensures forall i :: 0 <= i < |badges| ==> badges[i] != "" && '/' !in badges[i]
  {
    if entries == [] then []
    else
      var name := BadgeName(entries[|entries| - 1]);
      BadgesFrom(entries[..|entries| - 1]) + (if name != "" then [name] else [])
  }

  /** `parseBadges`: the badge names of the `,`-separated entries. */
  function BadgesOf(badgesString: string): seq<string> {
    BadgesFrom(Split(badgesString, ','))
  }

  // ---------------------------------------------------------------------------
  // Emotes: `id:start-end,start-end/id:start-end,...`

  /** The emote occurrence one `start-end` position describes; a missing end decodes to 0. */
  function EmoteAt(id: int, position: string): Emote {
    var positionTuple := Split(position, '-');
    Emote(id, ParseInt(Some(positionTuple[0])), ParseInt(if |positionTuple| > 1 then Some(positionTuple[1]) else None))
  }

  /** One emote per position, in order, all with the same id. */
  function PositionEmotes(id: int, positions: seq<string>): (emotes: seq<Emote>)
    ensures |emotes| == |positions|
    ensures forall k :: 0 <= k < |emotes| ==> emotes[k] == EmoteAt(id, positions[k])
  {
    if positions == [] then []
    else PositionEmotes(id, positions[..|positions| - 1]) + [EmoteAt(id, positions[|positions| - 1])]
  }

  /** The id of an emote group: the number before its first `:` (no `:` gives the empty name, so 0). */
  function GroupId(group: string): int {
    var separatorPos := IndexOf(group, ':');
    ParseInt(Some(if separatorPos < 0 then "" else group[..separatorPos]))
  }

  /** The position list of an emote group: what follows its first `:` (the whole group if there is none), split on `,`. */
  function GroupPositions(group: string): seq<string> {
    Split(group[IndexOf(group, ':') + 1..], ',')
  }

  /** The emotes of the groups, group by group and position by position. */
  function GroupsEmotes(groups: seq<string>): seq<Emote> {
    if groups == [] then []
    else
      var group := groups[|groups| - 1];
      GroupsEmotes(groups[..|groups| - 1]) + PositionEmotes(GroupId(group), GroupPositions(group))
  }

  lemma PositionEmotesSnoc(id: int, positions: seq<string>, p: nat)
    requires p < |positions|
    ensures PositionEmotes(id, positions[..p + 1]) == PositionEmotes(id, positions[..p]) + [EmoteAt(id, positions[p])]
  {
    assert positions[..p + 1][..p] == positions[..p];
  }

  lemma GroupsEmotesSnoc(groups: seq<string>, g: nat)
    requires g < |groups|
    ensures GroupsEmotes(groups[..g + 1]) == GroupsEmotes(groups[..g]) + PositionEmotes(GroupId(groups[g]), GroupPositions(groups[g]))
  {
    assert groups[..g + 1][..g] == groups[..g];
  }

  /** The number of positions the groups list. */
  function PositionCount(groups: seq<string>): nat {
    if groups == [] then 0
    else PositionCount(groups[..|groups| - 1]) + |GroupPositions(groups[|groups| - 1])|
  }

  /** `parseEmotes`: the emotes an `emotes` value adds, in order; the empty value adds none. */
  function EmotesOf(value: string): seq<Emote> {
    if value == "" then [] else GroupsEmotes(Split(value, '/'))
  }

  // ---------------------------------------------------------------------------
  // Assignment of one key and the whole parse

  /** The cases of the `switch` in `assignTag`. */
  datatype Key = Color | Bits | Badges | DisplayName | EmoteOnly | Emotes | Id | Mod | RoomId
               | Subscriber | SentTs | TmiSentTs | Turbo | UserId | UserTypeKey | Unknown

  /** The case label of a key, as written in the `switch`. */
  function KeyName(k: Key): string {
    match k
    case Color => "color"
    case Bits => "bits"
    case Badges => "badges"
    case DisplayName => "display-name"
    case EmoteOnly => "emote-only"
    case Emotes => "emotes"
    case Id => "id"
    case Mod => "mod"
    case RoomId => "room-id"
    case Subscriber => "subscriber"
    case SentTs => "sent-ts"
    case TmiSentTs => "tmi-sent-ts"
    case Turbo => "turbo"
    case UserId => "user-id"
    case UserTypeKey => "user-type"
    case Unknown => ""
  }

  /** The case labels of the `switch`, in source order. */
  const KeyCases: seq<Key> := [Color, Bits, Badges, DisplayName, EmoteOnly, Emotes, Id, Mod, RoomId,
                               Subscriber, SentTs, TmiSentTs, Turbo, UserId, UserTypeKey]

  /** The case `name.toLowerCase()` selects; `Unknown` is the `default` case. */
  function KeyOf(name: string): Key {
    FindKey(Lower(name), 0)
  }

  /** The first case label from `from` on that equals `key`. */
  function FindKey(key: string, from: nat): (k: Key)
    requires from <= |KeyCases|
    ensures k != Unknown ==> key == KeyName(k)
    ensures k == Unknown ==> forall j :: from <= j < |KeyCases| ==> KeyName(KeyCases[j]) != key
    decreases |KeyCases| - from
  {
    if from == |KeyCases| then Unknown
    else if KeyName(KeyCases[from]) == key then KeyCases[from]
    else FindKey(key, from + 1)
  }

  /** Distinct cases have distinct labels. */
  lemma KeyNameInjective(a: Key, b: Key)
    requires KeyName(a) == KeyName(b)
    ensures a == b
  {
  }

  /** A name selects a case exactly when its lower-case form is that case's label. */
  lemma KeyOfMatches(name: string, k: Key)
    requires k != Unknown
    ensures KeyOf(name) == k <==> Lower(name) == KeyName(k)
  {
    assert k in KeyCases;
    var key := KeyOf(name);
    if Lower(name) == KeyName(k) && key != k {
      if key != Unknown {
        KeyNameInjective(key, k);
      }
    }
  }

  /** Keys are matched without regard to case. */
  lemma KeysIgnoreCase(name: string)
    ensures KeyOf(name) == KeyOf(Lower(name))
  {
    LowerIsLowerCase(name);
  }

  /** The keys whose value is handed to a string method, so that an undefined value throws. */
  predicate CallsStringMethod(k: Key) {
    k == Bits || k == Badges || k == Emotes || k == UserTypeKey
  }

  /** `assignTag`: the record after one `name=value` segment, or the TypeError it raises. */
  function Assign(r: TagRecord, key: Key, value: TagValue): (res: Result<TagRecord, TagError>)
    ensures res.Failure? <==> value.None? && CallsStringMethod(key)
    ensures res.Failure? ==> res.error == UndefinedValue(key)
    ensures res.Success? && key in {SentTs, Unknown} ==> res.value == r
    ensures res.Success? ==> r.emoteList <= res.value.emoteList
  {
    match key
    case Color => Success(r.(color := value))
    case Bits =>
      // no `break`: the bits value is also parsed as a badge list
      if value.None? then Failure(UndefinedValue(key))
      else Success(r.(bits := ParseInt(value), badgeList := BadgesOf(value.value)))
    case Badges =>
      if value.None? then Failure(UndefinedValue(key))
      else Success(r.(badgeList := BadgesOf(value.value)))
    case DisplayName => Success(r.(displayName := value))
    case EmoteOnly => Success(r.(isEmoteOnly := ParseBool(value)))
    case Emotes =>
      if value.None? then Failure(UndefinedValue(key))
      else Success(r.(emoteList := r.emoteList + EmotesOf(value.value)))
    case Id => Success(r.(messageId := value))
    case Mod => Success(r.(isMod := ParseBool(value)))
    case RoomId => Success(r.(roomId := ParseInt(value)))
    case Subscriber => Success(r.(isSubscriber := ParseBool(value)))
    case SentTs => Success(r)
    case TmiSentTs => Success(r.(serverReceivedMsgTime := ParseInt(value)))
    case Turbo => Success(r.(isTurbo := ParseBool(value)))
    case UserId => Success(r.(userId := ParseInt(value)))
    case UserTypeKey =>
      if value.None? then Failure(UndefinedValue(key))
      else Success(r.(userType := ParseUserType(value.value)))
    case Unknown => Success(r)
  }

  /** The key of a segment: the text before its first `=`. */
  function SegmentName(segment: string): string {
    Split(segment, '=')[0]
  }

  /** The value of a segment: the text between its first and second `=`, or `undefined` without `=`. */
  function SegmentValue(segment: string): TagValue {
    var tagTuple := Split(segment, '=');
    if |tagTuple| > 1 then Some(tagTuple[1]) else None
  }

  /** `parseTags` on a record: the segments assigned left to right; the first TypeError ends the parse. */
  function ApplyAll(r: TagRecord, segments: seq<string>): Result<TagRecord, TagError>
    decreases |segments|
  {
    if segments == [] then Success(r)
    else
      match Assign(r, KeyOf(SegmentName(segments[0])), SegmentValue(segments[0]))
      case Failure(e) => Failure(e)
      case Success(r') => ApplyAll(r', segments[1..])
  }

  /** The constructor of `Tags`: without the leading `@` every field keeps its default. */
  function ParseTagString(raw: string): Result<TagRecord, TagError> {
    if !StartsWith(raw, "@") then Success(Defaults)
    else ApplyAll(Defaults, Split(raw[1..], ';'))
  }

  // ---------------------------------------------------------------------------
  // Properties of the parse

  /** A line that does not start with `@` leaves every field at its default. */
  lemma WithoutMarkerDefaults(raw: string)
    requires !StartsWith(raw, "@")
    ensures ParseTagString(raw) == Success(Defaults)
  {
  }

  /** The boolean keys decode `value != "0"` into their own field and change nothing else. */
  lemma EmoteOnlyKey(r: TagRecord, name: string, value: TagValue)
    requires Lower(name) == "emote-only"
    ensures Assign(r, KeyOf(name), value) == Success(r.(isEmoteOnly := value != Some("0")))
  {
    KeyOfMatches(name, EmoteOnly);
  }

  lemma ModKey(r: TagRecord, name: string, value: TagValue)
    requires Lower(name) == "mod"
    ensures Assign(r, KeyOf(name), value) == Success(r.(isMod := value != Some("0")))
  {
    KeyOfMatches(name, Mod);
  }

  lemma SubscriberKey(r: TagRecord, name: string, value: TagValue)
    requires Lower(name) == "subscriber"
    ensures Assign(r, KeyOf(name), value) == Success(r.(isSubscriber := value != Some("0")))
  {
    KeyOfMatches(name, Subscriber);
  }

  lemma TurboKey(r: TagRecord, name: string, value: TagValue)
    requires Lower(name) == "turbo"
    ensures Assign(r, KeyOf(name), value) == Success(r.(isTurbo := value != Some("0")))
  {
    KeyOfMatches(name, Turbo);
  }

  /** An unrecognised role name gives `Normal`. */
  lemma UnknownUserTypeIsNormal(t: string)
    requires Lower(t) !in {"mod", "global_mod", "admin", "staff"}
    ensures ParseUserType(t) == Normal
  {
  }

  /** `bits` falls through into `badges`: it sets the bit count and overwrites the badge list. */
  lemma BitsOverwritesBadges(r: TagRecord, name: string, value: string)
    requires Lower(name) == "bits"
    ensures Assign(r, KeyOf(name), Some(value)) == Success(r.(bits := ParseNumber(value), badgeList := BadgesOf(value)))
  {
    KeyOfMatches(name, Bits);
  }

  /** Of `key=a=b`, only `a` is the value; what follows the second `=` is lost. */
  lemma ValueStopsAtSecondEquals(key: string, a: string, b: string)
    requires '=' !in key && '=' !in a
    ensures SegmentName(key + "=" + a + "=" + b) == key
    ensures SegmentValue(key + "=" + a + "=" + b) == Some(a)
  {
    assert key + "=" + a + "=" + b == key + ['='] + (a + ['='] + b);
    SplitAtFirstSeparator(key, '=', a + ['='] + b);
    SplitAtFirstSeparator(a, '=', b);
  }

  /** A segment without `=` has an undefined value. */
  lemma SegmentWithoutEquals(segment: string)
    requires '=' !in segment
    ensures SegmentName(segment) == segment && SegmentValue(segment) == None
  {
    SplitWithoutSeparator(segment, '=');
  }

  /** A segment `k=v` with no other `=` has the name `k` and the value `v`. */
  lemma SegmentParts(k: string, v: string)
    requires '=' !in k && '=' !in v
    ensures SegmentName(k + "=" + v) == k && SegmentValue(k + "=" + v) == Some(v)
  {
    assert k + "=" + v == k + ['='] + v;
    SplitAtFirstSeparator(k, '=', v);
    SplitWithoutSeparator(v, '=');
  }

  /** One `name=value` pair of a tag line, as the platform writes it. */
  datatype TagPair = TagPair(name: string, value: string)

  /** The pair can be written without changing how the line splits: no `;` or `=` in it. */
  predicate PlainPair(p: TagPair) {
    ';' !in p.name && '=' !in p.name && ';' !in p.value && '=' !in p.value
  }

  /** The segment `name=value`. */
  function PairText(p: TagPair): (text: string)
    requires PlainPair(p)
    ensures ';' !in text
  {
    assert p.name + "=" + p.value == p.name + ['='] + p.value;
    p.name + "=" + p.value
  }

  /** The segments of the pairs. */
  function PairTexts(pairs: seq<TagPair>): (texts: seq<string>)
    requires forall i :: 0 <= i < |pairs| ==> PlainPair(pairs[i])
    ensures |texts| == |pairs|
    ensures forall i :: 0 <= i < |texts| ==> texts[i] == PairText(pairs[i])
  {
    seq(|pairs|, i requires 0 <= i < |pairs| => PairText(pairs[i]))
  }

  /** The tag line `@name=value;name=value;...`. */
  function TagLine(pairs: seq<TagPair>): string
    requires forall i :: 0 <= i < |pairs| ==> PlainPair(pairs[i])
  {
    "@" + Join(PairTexts(pairs), ";")
  }

  /** Each pair's value, which is defined, assigned under the case its name selects, left to right. */
  function AssignPairs(r: TagRecord, pairs: seq<TagPair>): TagRecord
    decreases |pairs|
  {
    if pairs == [] then r
    else AssignPairs(Assign(r, KeyOf(pairs[0].name), Some(pairs[0].value)).value, pairs[1..])
  }

  lemma {:induction false} ApplyAllPairs(r: TagRecord, pairs: seq<TagPair>)
    requires forall i :: 0 <= i < |pairs| ==> PlainPair(pairs[i])
    ensures ApplyAll(r, PairTexts(pairs)) == Success(AssignPairs(r, pairs))
    decreases |pairs|
  {
    if pairs != [] {
      var texts := PairTexts(pairs);
      SegmentParts(pairs[0].name, pairs[0].value);
      var r' := Assign(r, KeyOf(pairs[0].name), Some(pairs[0].value)).value;
      ApplyAllPairs(r', pairs[1..]);
      assert texts[1..] == PairTexts(pairs[1..]);
    }
  }

  /**
   * A tag line as the platform writes it, `@` and then `name=value` pairs
   * joined by `;` with no `;` or `=` inside a name or value, never throws and
   * parses to each value assigned under its name, left to right; the line
   * `@` alone parses to the defaults.
   */
  lemma TagStringRoundTrip(pairs: seq<TagPair>)
    requires forall i :: 0 <= i < |pairs| ==> PlainPair(pairs[i])
    ensures ParseTagString(TagLine(pairs)) == Success(AssignPairs(Defaults, pairs))
  {
    var texts := PairTexts(pairs);
    var raw := TagLine(pairs);
    assert raw[..1] == "@" && raw[1..] == Join(texts, ";");
    if pairs == [] {
      assert raw == "@";
      EmptyTagLine();
    } else {
      SplitJoin(texts, ';');
      ApplyAllPairs(Defaults, pairs);
    }
  }

  /** The line `@` alone: one empty segment, which matches no case, so every field keeps its default. */
  lemma EmptyTagLine()
    ensures ParseTagString("@") == Success(Defaults)
  {
    assert "@"[1..] == "";
    assert Split("", ';') == [""];
    SegmentWithoutEquals("");
    assert KeyOf("") == Unknown;
    assert ApplyAll(Defaults, [""]) == ApplyAll(Defaults, []);
  }

  /** `@color=blue;mod=1` sets the colour to `blue` and the moderator flag, and nothing else. */
  lemma ColorAndModLine(line: string)
    requires line == "@color=blue;mod=1"
    ensures ParseTagString(line) == Success(Defaults.(color := Some("blue"), isMod := true))
  {
    var color, mod := TagPair("color", "blue"), TagPair("mod", "1");
    ColorAndModText(color, mod, line);
    TagStringRoundTrip([color, mod]);
    ColorAndModAssign(color, mod);
  }

  lemma ColorAndModText(color: TagPair, mod: TagPair, line: string)
    requires color == TagPair("color", "blue") && mod == TagPair("mod", "1")
    requires line == "@color=blue;mod=1"
    ensures PlainPair(color) && PlainPair(mod) && TagLine([color, mod]) == line
  {
    var texts := PairTexts([color, mod]);
    assert texts == [PairText(color), PairText(mod)];
    assert Join(texts, ";") == PairText(color) + ";" + PairText(mod);
  }

  lemma ColorAndModAssign(color: TagPair, mod: TagPair)
    requires color == TagPair("color", "blue") && mod == TagPair("mod", "1")
    ensures AssignPairs(Defaults, [color, mod]) == Defaults.(color := Some("blue"), isMod := true)
  {
    var r := Defaults.(color := Some("blue"));
    LowerCaseName(color.name);
    KeyOfMatches(color.name, Color);
    assert Assign(Defaults, KeyOf(color.name), Some(color.value)) == Success(r);
    LowerCaseName(mod.name);
    ModKey(r, mod.name, Some(mod.value));
    assert [color, mod][1..] == [mod];
    assert AssignPairs(r, [mod]) == AssignPairs(r.(isMod := true), []);
  }

  lemma LowerCaseName(name: string)
    requires name == "color" || name == "mod"
    ensures Lower(name) == name
  {
    assert IsLowerCase(name);
    LowerOfLowerCase(name);
  }

  /** Each position of each group adds exactly one emote; the empty value adds none. */
  lemma {:induction false} EmoteCount(groups: seq<string>)
    ensures |GroupsEmotes(groups)| == PositionCount(groups)
    ensures PositionCount(groups) >= |groups|
  {
    if groups != [] {
      EmoteCount(groups[..|groups| - 1]);
    }
  }

  /** The segment `emotes=v` selects the `emotes` case with the value `v`. */
  lemma EmotesSegmentParts(v: string)
    requires '=' !in v
    ensures KeyOf(SegmentName("emotes=" + v)) == Emotes
    ensures SegmentValue("emotes=" + v) == Some(v)
  {
    assert "emotes=" + v == "emotes" + ['='] + v;
    SplitAtFirstSeparator("emotes", '=', v);
    SplitWithoutSeparator(v, '=');
    LowerOfLowerCase("emotes");
    KeyOfMatches("emotes", Emotes);
  }

  /** An `emotes=v` segment appends the emotes of `v` and the parse goes on. */
  lemma EmotesSegment(r: TagRecord, v: string, rest: seq<string>)
    requires '=' !in v
    ensures ApplyAll(r, ["emotes=" + v] + rest) == ApplyAll(r.(emoteList := r.emoteList + EmotesOf(v)), rest)
  {
    var segments := ["emotes=" + v] + rest;
    EmotesSegmentParts(v);
    assert segments[0] == "emotes=" + v && segments[1..] == rest;
    var emotes := EmotesOf(v);
    assert Assign(r, Emotes, Some(v)) == Success(r.(emoteList := r.emoteList + emotes));
    ApplyAllStep(r, segments);
  }

  /** One step of the parse: a segment that assigns without error hands its record on to the rest. */
  lemma ApplyAllStep(r: TagRecord, segments: seq<string>)
    requires segments != []
    requires Assign(r, KeyOf(SegmentName(segments[0])), SegmentValue(segments[0])).Success?
    ensures ApplyAll(r, segments) == ApplyAll(Assign(r, KeyOf(SegmentName(segments[0])), SegmentValue(segments[0])).value, segments[1..])
  {
  }

  /** Emotes are collected, never deduplicated: repeated `emotes` keys accumulate. */
  lemma EmotesAccumulate(r: TagRecord, a: string, b: string)
    requires '=' !in a && '=' !in b
    ensures ApplyAll(r, ["emotes=" + a, "emotes=" + b]) ==
            Success(r.(emoteList := r.emoteList + EmotesOf(a) + EmotesOf(b)))
  {
    EmotesSegment(r, a, ["emotes=" + b]);
    var r1 := r.(emoteList := r.emoteList + EmotesOf(a));
    EmotesSegment(r1, b, []);
    assert ["emotes=" + a] + ["emotes=" + b] == ["emotes=" + a, "emotes=" + b];
    assert ["emotes=" + b] + [] == ["emotes=" + b];
  }

  /**
   * Badges as the platform writes them, `name/version` joined by `,`, parse
   * back to the names in order when every name is non-empty and free of
   * `,` and `/`, and every version is free of `,`; no badges, the empty
   * value, parse back to none.
   */
  lemma {:induction false} BadgesRoundTrip(names: seq<string>, versions: seq<string>)
    requires |names| == |versions|
    requires forall i :: 0 <= i < |names| ==> names[i] != "" && ',' !in names[i] && '/' !in names[i]
    requires forall i :: 0 <= i < |versions| ==> ',' !in versions[i]
    ensures BadgesOf(Join(BadgeEntries(names, versions), ",")) == names
  {
    var entries := BadgeEntries(names, versions);
    if names == [] {
      assert Join(entries, ",") == "";
      assert Split("", ',') == [""];
      assert BadgesFrom([""]) == BadgesFrom([]) + [];
    } else {
      SplitJoin(entries, ',');
      BadgesFromEntries(names, versions);
    }
  }

  /** The `name/version` entries of a badge list. */
  function BadgeEntries(names: seq<string>, versions: seq<string>): (entries: seq<string>)
    requires |names| == |versions|
    requires forall i :: 0 <= i < |names| ==> ',' !in names[i]
    requires forall i :: 0 <= i < |versions| ==> ',' !in versions[i]
    ensures |entries| == |names|
    ensures forall i :: 0 <= i < |entries| ==> entries[i] == names[i] + "/" + versions[i] && ',' !in entries[i]
  {
    seq(|names|, i requires 0 <= i < |names| => names[i] + "/" + versions[i])
  }

  lemma {:induction false} BadgesFromEntries(names: seq<string>, versions: seq<string>)
    requires |names| == |versions|
    requires forall i :: 0 <= i < |names| ==> names[i] != "" && ',' !in names[i] && '/' !in names[i]
    requires forall i :: 0 <= i < |versions| ==> ',' !in versions[i]
    ensures BadgesFrom(BadgeEntries(names, versions)) == names
  {
    var entries := BadgeEntries(names, versions);
    if names != [] {
      var n := |names| - 1;
      BadgesFromEntries(names[..n], versions[..n]);
      assert entries[..n] == BadgeEntries(names[..n], versions[..n]);
      assert names[n] + "/" + versions[n] == names[n] + ['/'] + versions[n];
      SplitAtFirstSeparator(names[n], '/', versions[n]);
      assert BadgeName(entries[n]) == names[n];
      assert names[..n] + [names[n]] == names;
    }
  }

  // ---------------------------------------------------------------------------
  // Emotes as the platform writes them

  /** The span of one emote occurrence. */
  datatype Span = Span(start: nat, end: nat)

  /** The occurrences of one emote: its id and at least one span. */
  datatype EmoteGroup = EmoteGroup(id: nat, spans: seq<Span>)

  /** `start-end`. */
  function SpanText(p: Span): (text: string)
    ensures ',' !in text && '/' !in text && ':' !in text
  {
    DigitsAvoid(ShowNat(p.start), ','); DigitsAvoid(ShowNat(p.start), '/'); DigitsAvoid(ShowNat(p.start), ':');
    DigitsAvoid(ShowNat(p.end), ','); DigitsAvoid(ShowNat(p.end), '/'); DigitsAvoid(ShowNat(p.end), ':');
    ShowNat(p.start) + "-" + ShowNat(p.end)
  }

  function SpanTexts(spans: seq<Span>): (texts: seq<string>)
    ensures |texts| == |spans|
    ensures forall k :: 0 <= k < |texts| ==> texts[k] == SpanText(spans[k]) && ',' !in texts[k]
  {
    seq(|spans|, k requires 0 <= k < |spans| => SpanText(spans[k]))
  }

  /** `id:start-end,start-end,...`. */
  function GroupText(g: EmoteGroup): (text: string)
    ensures '/' !in text && |text| >= 1
  {
    DigitsAvoid(ShowNat(g.id), '/');
    JoinAvoids(SpanTexts(g.spans), ",", '/');
    ShowNat(g.id) + ":" + Join(SpanTexts(g.spans), ",")
  }

  function GroupTexts(groups: seq<EmoteGroup>): (texts: seq<string>)
    ensures |texts| == |groups|
    ensures forall i :: 0 <= i < |texts| ==> texts[i] == GroupText(groups[i]) && '/' !in texts[i]
  {
    seq(|groups|, i requires 0 <= i < |groups| => GroupText(groups[i]))
  }

  /** The whole `emotes` value: the groups joined by `/`. */
  function EmotesText(groups: seq<EmoteGroup>): string {
    Join(GroupTexts(groups), "/")
  }

  /** The occurrences a group describes, span by span. */
  function GroupTriples(g: EmoteGroup): (emotes: seq<Emote>)
    ensures |emotes| == |g.spans|
    ensures forall k :: 0 <= k < |emotes| ==> emotes[k] == Emote(g.id, g.spans[k].start, g.spans[k].end)
  {
    seq(|g.spans|, k requires 0 <= k < |g.spans| => Emote(g.id, g.spans[k].start, g.spans[k].end))
  }

  /** The occurrences the groups describe, group by group. */
  function Triples(groups: seq<EmoteGroup>): seq<Emote> {
    if groups == [] then [] else Triples(groups[..|groups| - 1]) + GroupTriples(groups[|groups| - 1])
  }

  /** A written span reads back as that span. */
  lemma SpanRoundTrip(id: int, p: Span)
    ensures EmoteAt(id, SpanText(p)) == Emote(id, p.start, p.end)
  {
    var a, b := ShowNat(p.start), ShowNat(p.end);
    DigitsAvoid(a, '-');
    DigitsAvoid(b, '-');
    assert SpanText(p) == a + ['-'] + b;
    SplitAtFirstSeparator(a, '-', b);
    SplitWithoutSeparator(b, '-');
    ParseShowNat(p.start, "");
    ParseShowNat(p.end, "");
    assert a + "" == a && b + "" == b;
  }

  /** A written group reads back as its id and its occurrences, in order. */
  lemma GroupRoundTrip(g: EmoteGroup)
    requires g.spans != []
    ensures GroupId(GroupText(g)) == g.id
    ensures PositionEmotes(GroupId(GroupText(g)), GroupPositions(GroupText(g))) == GroupTriples(g)
  {
    var text, idText, joined := GroupText(g), ShowNat(g.id), Join(SpanTexts(g.spans), ",");
    var k := |idText|;
    assert text == idText + ":" + joined;
    ColonAfterDigits(idText, joined);
    assert text[..k] == idText && text[k + 1..] == joined;
    ParseShowNat(g.id, "");
    assert idText + "" == idText;
    SplitJoin(SpanTexts(g.spans), ',');
    SpansRoundTrip(g);
  }

  /** The first `:` of `digits:rest` is the one after the digits. */
  lemma ColonAfterDigits(digits: string, rest: string)
    requires AllDigits(digits)
    ensures IndexOf(digits + ":" + rest, ':') == |digits|
  {
    var text := digits + ":" + rest;
    DigitsAvoid(digits, ':');
    assert text[|digits|] == ':';
    var i := IndexOf(text, ':');
    assert text[..|digits|] == digits;
  }

  /** Written spans read back as the group's occurrences, in order. */
  lemma SpansRoundTrip(g: EmoteGroup)
    ensures PositionEmotes(g.id, SpanTexts(g.spans)) == GroupTriples(g)
  {
    var emotes := PositionEmotes(g.id, SpanTexts(g.spans));
    forall j | 0 <= j < |emotes|
      ensures emotes[j] == GroupTriples(g)[j]
    {
      SpanRoundTrip(g.id, g.spans[j]);
    }
  }

  lemma {:induction false} GroupsRoundTrip(groups: seq<EmoteGroup>)
    requires forall i :: 0 <= i < |groups| ==> groups[i].spans != []
    ensures GroupsEmotes(GroupTexts(groups)) == Triples(groups)
  {
    if groups != [] {
      var n := |groups| - 1;
      var texts := GroupTexts(groups);
      GroupsRoundTrip(groups[..n]);
      assert texts[..n] == GroupTexts(groups[..n]);
      GroupRoundTrip(groups[n]);
    }
  }

  /**
   * Emotes as the platform writes them, `id:start-end,start-end` groups joined
   * by `/`, parse back to one emote per span, group by group and span by span,
   * each with its group's id, when every group has a span; no groups, the
   * empty value, parse back to none.
   */
  lemma EmotesRoundTrip(groups: seq<EmoteGroup>)
    requires forall i :: 0 <= i < |groups| ==> groups[i].spans != []
    ensures EmotesOf(EmotesText(groups)) == Triples(groups)
  {
    if groups != [] {
      var texts := GroupTexts(groups);
      SplitJoin(texts, '/');
      assert EmotesText(groups) != "";
      GroupsRoundTrip(groups);
    }
  }

  // ---------------------------------------------------------------------------
  // The object

  /** A parsed metadata prefix, filled in field by field. */
  class Tags {
    var color: TagValue
    var displayName: TagValue
    var isEmoteOnly: bool
    var emoteList: seq<Emote>
    var messageId: TagValue
    var isMod: bool
    var roomId: int
    var isSubscriber: bool
    var serverReceivedMsgTime: int
    var isTurbo: bool
    var userId: int
    var userType: UserType
    var bits: int
    var badgeList: seq<string>

    /** The object's fields as a record. */
    function Record(): TagRecord
      reads this
    {
      TagRecord(color, displayName, isEmoteOnly, emoteList, messageId, isMod, roomId, isSubscriber,
                serverReceivedMsgTime, isTurbo, userId, userType, bits, badgeList)
    }

    /** The field initialisers. */
    constructor ()
      ensures Record() == Defaults
    {
      color, displayName, isEmoteOnly, emoteList := Some(""), Some(""), false, [];
      messageId, isMod, roomId, isSubscriber := Some(""), false, 0, false;
      serverReceivedMsgTime, isTurbo, userId, userType := 0, false, 0, Normal;
      bits, badgeList := 0, [];
    }

    /**
     * `new Tags(raw)`: a fresh object holding the parse of `raw`, or the
     * TypeError its constructor throws.
     */
    static method Create(raw: string) returns (r: Result<Tags, TagError>)
      ensures r.Success? <==> ParseTagString(raw).Success?
      ensures r.Success? ==> fresh(r.value) && r.value.Record() == ParseTagString(raw).value
      ensures r.Failure? ==> r.error == ParseTagString(raw).error
    {
      var t := new Tags();
      if !StartsWith(raw, "@") {
        return Success(t);
      }
      var thrown := t.ParseTags(raw[1..]);
      if thrown.Some? {
        return Failure(thrown.value);
      }
      return Success(t);
    }

    /** Assigns the segments of `tags` in order; a TypeError stops at its segment. */
    method ParseTags(tags: string) returns (thrown: Option<TagError>)
      modifies this
      ensures ApplyAll(old(Record()), Split(tags, ';')) == if thrown.Some? then Failure(thrown.value) else Success(Record())
    {
      var tagList := Split(tags, ';');
      thrown := None;
      for i := 0 to |tagList|
        invariant thrown.None?
        invariant ApplyAll(old(Record()), tagList) == ApplyAll(Record(), tagList[i..])
      {
        var tagTuple := Split(tagList[i], '=');
        var tagName := tagTuple[0];
        var tagValue := if |tagTuple| > 1 then Some(tagTuple[1]) else None;
        assert tagList[i..][0] == tagList[i] && tagList[i..][1..] == tagList[i + 1..];
        assert tagName == SegmentName(tagList[i]) && tagValue == SegmentValue(tagList[i]);
        ghost var before := Record();
        thrown := AssignTag(tagName, tagValue);
        if thrown.Some? {
          assert ApplyAll(before, tagList[i..]) == Failure(thrown.value);
          return;
        }
      }
      assert tagList[|tagList|..] == [];
    }

    /** `assignTag`: updates the field that the lower-cased `name` selects, as `Assign` says. */
    method AssignTag(name: string, value: TagValue) returns (thrown: Option<TagError>)
      modifies this
      ensures Assign(old(Record()), KeyOf(name), value) == if thrown.Some? then Failure(thrown.value) else Success(Record())
    {
      thrown := AssignKey(KeyOf(name), value);
    }

    /** The `switch` of `assignTag` on the selected case. */
    method AssignKey(key: Key, value: TagValue) returns (thrown: Option<TagError>)
      modifies this
      ensures Assign(old(Record()), key, value) == if thrown.Some? then Failure(thrown.value) else Success(Record())
    {
      thrown := None;
      match key {
        case Bits | Badges =>
          thrown := AssignBadges(key, value);
        case Emotes =>
          thrown := AssignEmotes(value);
        case UserTypeKey =>
          thrown := AssignUserType(value);
        case Color | DisplayName | Id =>
          AssignText(key, value);
        case EmoteOnly | Mod | Subscriber | Turbo =>
          AssignFlag(key, value);
        case RoomId | TmiSentTs | UserId =>
          AssignNumber(key, value);
        case SentTs =>
        case Unknown =>
      }
    }

    /** The `bits` and `badges` cases; `bits` falls through into `badges`. */
    method AssignBadges(key: Key, value: TagValue) returns (thrown: Option<TagError>)
      requires key == Bits || key == Badges
      modifies this
      ensures Assign(old(Record()), key, value) == if thrown.Some? then Failure(thrown.value) else Success(Record())
    {
      thrown := None;
      if key == Bits {
        bits := ParseInt(value);
      }
      if value.None? {
        thrown := Some(UndefinedValue(key));
      } else {
        badgeList := ParseBadges(value.value);
      }
    }

    /** The `emotes` case. */
    method AssignEmotes(value: TagValue) returns (thrown: Option<TagError>)
      modifies this
      ensures Assign(old(Record()), Emotes, value) == if thrown.Some? then Failure(thrown.value) else Success(Record())
    {
      thrown := None;
      if value.None? {
        thrown := Some(UndefinedValue(Emotes));
      } else {
        ParseEmotes(value.value);
      }
    }

    /** The `user-type` case. */
    method AssignUserType(value: TagValue) returns (thrown: Option<TagError>)
      modifies this
      ensures Assign(old(Record()), UserTypeKey, value) == if thrown.Some? then Failure(thrown.value) else Success(Record())
    {
      thrown := None;
      if value.None? {
        thrown := Some(UndefinedValue(UserTypeKey));
      } else {
        userType := ParseUserType(value.value);
      }
    }

    /** The cases that store the value as it is. */
    method AssignText(key: Key, value: TagValue)
      requires key == Color || key == DisplayName || key == Id
      modifies this
      ensures Assign(old(Record()), key, value) == Success(Record())
    {
      match key {
        case Color =>
          color := value;
        case DisplayName =>
          displayName := value;
        case Id =>
          messageId := value;
      }
    }

    /** The cases that decode the value as a flag. */
    method AssignFlag(key: Key, value: TagValue)
      requires key == EmoteOnly || key == Mod || key == Subscriber || key == Turbo
      modifies this
      ensures Assign(old(Record()), key, value) == Success(Record())
    {
      match key {
        case EmoteOnly =>
          isEmoteOnly := ParseBool(value);
        case Mod =>
          isMod := ParseBool(value);
        case Subscriber =>
          isSubscriber := ParseBool(value);
        case Turbo =>
          isTurbo := ParseBool(value);
      }
    }

    /** The cases that decode the value as a number. */
    method AssignNumber(key: Key, value: TagValue)
      requires key == RoomId || key == TmiSentTs || key == UserId
      modifies this
      ensures Assign(old(Record()), key, value) == Success(Record())
    {
      match key {
        case RoomId =>
          roomId := ParseInt(value);
        case TmiSentTs =>
          serverReceivedMsgTime := ParseInt(value);
        case UserId =>
          userId := ParseInt(value);
      }
    }

    /** `parseBadges`: collects the non-empty part before `/` of every `,`-separated entry. */
    static method ParseBadges(badgesString: string) returns (result: seq<string>)
      ensures result == BadgesOf(badgesString)
    {
      var bList := Split(badgesString, ',');
      result := [];
      for i := 0 to |bList|
        invariant result == BadgesFrom(bList[..i])
      {
        var b := Split(bList[i], '/');
        if |b[0]| > 0 {
          result := result + [b[0]];
        }
        assert bList[..i + 1][..i] == bList[..i];
      }
      assert bList[..|bList|] == bList;
    }

    /** `parseEmotes`: appends one emote per position of every group of `value`. */
    method ParseEmotes(value: string)
      modifies this`emoteList
      ensures Record() == old(Record()).(emoteList := old(emoteList) + EmotesOf(value))
    {
      if value == "" {
        return;
      }
      var emotes := Split(value, '/');
      for g := 0 to |emotes|
        invariant emoteList == old(emoteList) + GroupsEmotes(emotes[..g])
      {
        var emoteString := emotes[g];
        var separatorPos := IndexOf(emoteString, ':');
        // substring(0, -1) is the empty string
        var emoteName := if separatorPos < 0 then "" else emoteString[..separatorPos];
        var emoteId := ParseInt(Some(emoteName));
        var emotePositionString := emoteString[separatorPos + 1..];
        var emotePositionList := Split(emotePositionString, ',');
        GroupsEmotesSnoc(emotes, g);
        AppendAssoc(old(emoteList), GroupsEmotes(emotes[..g]), PositionEmotes(emoteId, emotePositionList));
        PushPositions(emoteId, emotePositionList);
      }
      assert emotes[..|emotes|] == emotes;
    }

    /** The inner loop of `parseEmotes`: pushes one emote per position of a group. */
    method PushPositions(emoteId: int, emotePositionList: seq<string>)
      modifies this`emoteList
      ensures emoteList == old(emoteList) + PositionEmotes(emoteId, emotePositionList)
    {
      for p := 0 to |emotePositionList|
        invariant emoteList == old(emoteList) + PositionEmotes(emoteId, emotePositionList[..p])
      {
        var positionTuple := Split(emotePositionList[p], '-');
        var start := ParseInt(Some(positionTuple[0]));
        var end := ParseInt(if |positionTuple| > 1 then Some(positionTuple[1]) else None);
        var emote := Emote(emoteId, start, end);
        PositionEmotesSnoc(emoteId, emotePositionList, p);
        AppendAssoc(old(emoteList), PositionEmotes(emoteId, emotePositionList[..p]), [emote]);
        emoteList := emoteList + [emote];
      }
      assert emotePositionList[..|emotePositionList|] == emotePositionList;
    }
  }
}

=== FILE: wrappers.dfy ===
/** Option and Result: JavaScript's `undefined` and thrown exceptions, as values. */
module Wrappers {

  datatype Option<+T> = None | Some(value: T)

  datatype Result<+R, +E> = Success(value: R) | Failure(error: E)
}
